=== FILE: README.md ===
# Inventory assistant back end: vector store, FAQ loader and sales reports

This project models three parts of the back end of an inventory assistant:

- **The `rag_embeddings` table** (`Backend/rag/embeddings.py`). Its rows hold a text, two category labels (`group_name`, `intent`), a JSON attachment (`meta`) and a 768-long embedding. The module offers:
  - single and batch inserts, each one transaction that either commits or rolls back;
  - a similarity search that filters by label and by `distance < threshold`, then returns the `top_k` closest rows;
  - a bulk delete.
- **The FAQ loader** (`Backend/rag/ingestor.py`). It turns each question/answer pair into a record, embeds the question, and writes all records in one batch.
- **The sales reports** (`Backend/db/functions.py`):
  - the date window of the Excel and CSV exports: a month given as `"YYYY-MM"`, or the last 30 days;
  - the rows an export selects;
  - the five best- and worst-selling products of the last 30 days.

Module layout:

| module | file | models |
|---|---|---|
| `Wrappers` | `wrappers.dfy` | `Option` and `Result` |
| `Ranking` | `ranking.dfy` | `ORDER BY key LIMIT k`: a stable sort by a real key plus a prefix |
| `Embeddings` | `embeddings.dfy` | the record types, validation, the search function and the `VectorStore` class |
| `Ingestor` | `ingestor.dfy` | `ingest_faqs` |
| `Calendar` | `calendar.dfy` | Python's proleptic Gregorian `datetime` arithmetic |
| `Text` | `text.dfy` | `str.split` and `int()` as the month parser uses them |
| `Reports` | `reports.dfy` | the export window, the export and the two rankings |

Modelling choices:

- **The database.** The table is a `VectorStore` object.
  - Its `rows` field holds the committed rows in insertion order. Its `nextId` field is the `id` serial.
  - Every write goes through `Commit`. `Commit` either appends all rows with consecutive fresh ids, or leaves the rows as they were and returns the error. After a failure the serial may have moved forward, because PostgreSQL does not give back sequence values drawn by a failed `INSERT`.
  - A connection or engine failure is the `storeFails` parameter. A failure of the `session.refresh` that `add_embedding` runs after its commit is the `refreshFails` parameter.
  - Column constraints are checked where the source's stack checks them. The `Vector(768)` length is checked on the client by pgvector's bind processor, for every row of a batch before any row reaches the server, so a wrong-length embedding anywhere in a batch is the error reported even when another row has an over-long label. `String(100)` and `String(150)` are `varchar(100)` and `varchar(150)`. These reject a longer label unless every character past the limit is a space; such a label is accepted and stored cut to the limit.
- **Distance.** The cosine distance pgvector computes is a caller-supplied function `dist`.
- **Search failures.** Any failure inside the search yields `[]`. The failures modelled are:
  - a query vector of the wrong length;
  - a negative `top_k`, which PostgreSQL rejects in `LIMIT`;
  - any other failure, given by the `fails` parameter.
- **Dates and time.** A date is a whole number of seconds since 0001-01-01 00:00, so Python's year range 1..9999 applies. The current time is a parameter `now`.
- **Embeddings.** The embedding model used by the loader is a function `embed`. Whether the model call raises, or returns fewer vectors than there are FAQs, is the `embedFails` parameter.

In three places the code is looser than a reader might expect, and the model follows the code:

- The code does not reject an empty `text`, `group_name` or `intent`. Only the column types constrain a row.
- A query vector of the wrong length raises inside `similarity_search`, so the caller gets `[]`, not a validation error.
- The search gives no tie-break among equal distances. The model promises no order among ties.

## Model

| member | source | states |
|---|---|---|
| Embeddings.Clip | Backend/rag/embeddings.py:42-43 | what a `varchar(n)` column stores is a prefix of the value exactly n characters long when the value is longer, and the value itself when it fits; only spaces are cut from an accepted value |
| Embeddings.WrongDimension | Backend/rag/embeddings.py:45 | true iff some row of the batch has an embedding that is not 768 long |
| Embeddings.Overlong | Backend/rag/embeddings.py:42-43 | true iff some row of the batch has a group name or intent with a non-space past 100 or 150 characters |
| Embeddings.Rejection | Backend/rag/embeddings.py:40-45 | a batch passes validation iff every row has a 768-long embedding and its group name and intent have nothing but spaces past 100 and 150 characters; the error is the dimension error iff some row of the batch has a wrong-length embedding, and the length error iff every embedding is 768 long and some label is too long; a validation error is never a store failure |
| Embeddings.Persist | Backend/rag/embeddings.py:40-45 | a commit gives the rows consecutive ids from the serial, in order, and each row holds its draft with the labels as the columns store them |
| Embeddings.StoredInColumns | Backend/rag/embeddings.py:42-45 | an accepted row is stored within its column widths, and a row whose labels already fit is stored unchanged |
| Embeddings.MetaDefaulting | Backend/rag/embeddings.py:108-159 | `add_embedding` never stores a JSON null: `None` and `{}` both become `{}`; `add_batch_embeddings` stores `{}` only for a missing `"meta"` key and keeps an explicit `None` as null |
| Embeddings.Candidates | Backend/rag/embeddings.py:204-216 | exactly the rows that pass both label filters (an absent or empty filter passes everything) and have `distance < threshold` are candidates, each paired with its distance and occurring as often as the row occurs in the table |
| Embeddings.Search | Backend/rag/embeddings.py:197-230 | failure, a wrong-length query or `top_k <= 0` gives `[]`; otherwise at most `top_k` results; every result is a stored row that passes the filters, with its true distance below the threshold; distances never decrease; results are drawn from the candidates, and any candidate left out is no closer than the last result |
| Embeddings.SearchKeepsClosest | Backend/rag/embeddings.py:219-222 | a qualifying row missing from a successful search means the result is full (`top_k` entries) and the row is no closer than the last result |
| Embeddings.SearchEmptyTable | Backend/rag/embeddings.py:180-233 | `similarity_search` over an empty table returns `[]`; this is the state `delete_all_embeddings` (lines 235-245) leaves behind |
| Embeddings.NothingBelowThreshold | Backend/rag/embeddings.py:213-216 | when no row is closer than the threshold (e.g. threshold 0 and positive distances), the search returns `[]` |
| Embeddings.VectorStore.constructor | Backend/rag/embeddings.py:38-45 | a new table is empty and valid, and its serial starts at 1 |
| Embeddings.VectorStore.Commit | Backend/rag/embeddings.py:163-169 | a transaction either appends every draft as stored with consecutive ids starting at the serial and advances the serial, or fails with the store error or else the validation error `Rejection` assigns (a wrong dimension anywhere in the batch before an over-long label), leaves the rows untouched and never moves the serial back |
| Embeddings.VectorStore.AddEmbedding | Backend/rag/embeddings.py:84-121 | success iff the store is up, the row is admissible and the refresh after the commit works; when the commit succeeds exactly one row is appended with the given fields, the labels as stored and `meta or {}`, under an id that is fresh and larger than every existing id; that id is returned on success, and a failing refresh raises although the row stays; when the commit fails the rows are as before and the error is returned |
| Embeddings.VectorStore.AddBatchEmbeddings | Backend/rag/embeddings.py:124-172 | an empty list returns 0 and touches nothing; otherwise success iff the store is up and every item is admissible, in which case one row per item is appended in input order with consecutive new ids and the labels as stored, and `len(items)` is returned; any failure leaves the rows as before and returns the error that occurred: the store error, or else the validation error `Rejection` assigns to the batch |
| Embeddings.VectorStore.SimilaritySearch | Backend/rag/embeddings.py:180-233 | the search reads the committed rows and returns what `Search` promises; it changes nothing |
| Embeddings.VectorStore.DefaultSearch | Backend/rag/embeddings.py:180-185 | with the default arguments (`top_k=3`, no filters, `threshold=0.4`) at most three stored rows come back, each at distance below 0.4 |
| Embeddings.VectorStore.DeleteAllEmbeddings | Backend/rag/embeddings.py:235-251 | success iff the store is up; on success the table is empty and the number of rows before is returned; on failure every row stays and the error is returned; the serial never goes back |
| Ranking.SortBy | Backend/rag/embeddings.py:219-220 | the result is a permutation of the input, ordered by non-decreasing key |
| Ranking.Smallest | Backend/rag/embeddings.py:219-222 | `ORDER BY key LIMIT k` returns `min(k, n)` elements in non-decreasing key order, drawn from the input as a multiset, and anything left out has a key no smaller than the last one kept |
| Ranking.InsertSorted | Backend/rag/embeddings.py:219-220 | inserting into a sorted sequence keeps it sorted |
| Ingestor.FaqTextRoundTrip | Backend/rag/ingestor.py:33 | the record text `"Pregunta: q\nRespuesta: a"` determines the question and the answer when the question has no line break |
| Ingestor.BuildItems | Backend/rag/ingestor.py:23-40 | one item per FAQ, in order; item i has text `"Pregunta: " + q + "\nRespuesta: " + a`, group `faq_empresa`, intent `faq_manual`, meta `{"tipo": "faq_estatica"}` and the embedding of question i alone |
| Ingestor.FaqItemsAdmissible | Backend/rag/ingestor.py:35-38 | the FAQ items, as stored, are the FAQ drafts, and they pass validation iff every question embeds to a 768-long vector: the fixed labels always fit their columns, so only the vector length can reject an item |
| Ingestor.FaqBatchError | Backend/rag/ingestor.py:35-43 | a failed FAQ batch raises the store error when the store is down and otherwise the dimension error, never the length error, because the fixed labels fit their columns |
| Ingestor.IngestFaqs | Backend/rag/ingestor.py:11-43 | no file: nothing is written; a failing embedding call (an exception, or too few vectors for the index at line 37) raises before anything is written; otherwise one all-or-nothing batch: on success every FAQ is appended after the existing rows (nothing is deleted first, so a second run appends duplicates) and the batch reports `len(faqs)`; the batch fails, leaving the rows as before, iff the list is non-empty and the store is down or some question embeds to a wrong-length vector, and the error raised is the store error when the store is down and the dimension error otherwise |
| Calendar.DaysInMonth | Backend/db/functions.py:126-130 | every month has 28 to 31 days |
| Calendar.YearLength | Backend/db/functions.py:127-128 | January 1 of year y+1 comes 365 or 366 days after January 1 of y, as the Gregorian leap rule says |
| Calendar.MonthsFillYear | Backend/db/functions.py:127-128 | the twelve months together have as many days as the year |
| Calendar.NextMonthStart | Backend/db/functions.py:127-130 | day 1 of the next month (January of y+1 after December) lies exactly the length of the month after day 1 of the month |
| Text.Split | Backend/db/functions.py:125 | `split("-")` yields at least one piece and no piece contains the separator |
| Text.JoinSplit | Backend/db/functions.py:125 | joining the pieces of a split with the separator gives back the string |
| Text.SplitJoin | Backend/db/functions.py:125 | splitting a join of separator-free pieces gives back the pieces |
| Text.ParseInt | Backend/db/functions.py:125 | `int()` succeeds iff the string is an optional `+` or `-` followed by at least one ASCII digit, and its value is the digits' decimal value, negated after a `-` |
| Text.ParseIntShowNat | Backend/db/functions.py:125 | `int()` reads back the decimal digits of n, with or without a leading zero |
| Text.ParseIntSigned | Backend/db/functions.py:125 | `int()` reads `+n` as n and `-n` as -n |
| Text.ParseIntRejects | Backend/db/functions.py:125 | `int()` rejects the empty string, a lone sign, and digits (signed or not) followed by a non-digit |
| Reports.ParseMonth | Backend/db/functions.py:125 | the only error reading a month string is the malformed-month `ValueError` |
| Reports.ParseDashed | Backend/db/functions.py:125 | two dash-free integers joined by one dash parse as the year and the month |
| Reports.ParseMonthShape | Backend/db/functions.py:125 | conversely, a string that parses as (y, m) is a dash-free integer reading as y, one dash, and a dash-free integer reading as m |
| Reports.ParseShowMonth | Backend/db/functions.py:123-125 | parsing `"YYYY-MM"` (month zero-padded) gives back the year and month |
| Reports.MonthBounds | Backend/db/functions.py:126-130 | the window exists iff the month is 1..12 and both its first day and the first day of the next month lie in years 1..9999; it starts at midnight of day 1, is exactly that month's length, and so start < end |
| Reports.ReportWindow | Backend/db/functions.py:123-133 | no month (None or empty): `[now - 30 days, now)`; a month string: a string that does not parse is the malformed-month error, and one that parses as (y, m) gives exactly the window of month m of year y, or its out-of-range error; every window has start < end |
| Reports.DashedWindow | Backend/db/functions.py:123-130 | any spelling `int()` accepts (a sign, leading zeros) of a year and a month around one dash gives the window of that month |
| Reports.MonthWindowSpansMonth | Backend/db/functions.py:123-130 | asking for `"YYYY-MM"` gives the window starting at day 1 of that month and spanning exactly its days |
| Reports.Export | Backend/db/functions.py:135-146 | the exported rows are exactly the rows with `start <= created_at < end`, a half-open window, each as often as it occurs in the table |
| Reports.Generate | Backend/db/functions.py:116-146 | an export fails exactly when its window does, with the same error; otherwise it carries that window and exactly the rows inside it, each as often as in the table |
| Reports.FormatsAgree | Backend/db/functions.py:81-103 | the Excel export and the CSV export compute the same window and the same rows |
| Reports.JoinProduct | Backend/db/functions.py:20 | a record joins exactly the products whose id is its `product_id`: a pair (name, sales) occurs once per product row with that id and name |
| Reports.Sales | Backend/db/functions.py:20-21 | every joined pair with `created_at >= cutoff` contributes its product name and daily sales, and every entry comes from such a pair |
| Reports.SalesAppend | Backend/db/functions.py:20-21 | the joined rows of two stretches of the log are those of each stretch, in log order |
| Reports.TotalAppend | Backend/db/functions.py:18 | the sum over two stretches of joined rows is the sum of the two sums |
| Reports.JoinTotal | Backend/db/functions.py:18-20 | one record adds its daily sales (NULL as 0) to a product's total once for each product row with its id and that name |
| Reports.RecordContribution | Backend/db/functions.py:18-22 | appending one record to the log changes each product's period total by exactly that record's contribution, and by nothing when it is older than the cutoff |
| Reports.Names | Backend/db/functions.py:22 | the group keys are distinct and are exactly the product names that occur |
| Reports.SqlSum | Backend/db/functions.py:18 | `SUM` is NULL iff every value of the group is NULL, and `sum or 0` equals the total counting NULL as 0 |
| Reports.Groups | Backend/db/functions.py:15-31 | one entry per product name, with the total counting NULL as 0 |
| Reports.TopSelling | Backend/db/functions.py:5-36 | at most 5 entries, totals non-increasing, each a product of the last 30 days with its total, no product twice, and any product left out sold no more than the fifth |
| Reports.LeastSelling | Backend/db/functions.py:40-70 | at most 5 entries, totals non-decreasing, each a product of the last 30 days with its total, no product twice, and any product left out sold no less than the fifth |
| Reports.NullGroups | Backend/db/functions.py:18-29 | its entries are exactly the given names whose SQL sum is NULL, each reported with 0 sales |
| Reports.ValueGroups | Backend/db/functions.py:18-29 | its entries are exactly the given names whose SQL sum is a number, each with its total |
| Reports.NullGroupsDistinct | Backend/db/functions.py:22 | over distinct names, `GROUP BY` gives each NULL group once |
| Reports.ValueGroupsDistinct | Backend/db/functions.py:22 | over distinct names, `GROUP BY` gives each valued group once |
| Reports.SplitGroups | Backend/db/functions.py:18-29 | the NULL groups and the valued groups together are exactly the groups of the period |
| Reports.NullsFirst | Backend/db/functions.py:15-26 | under `DESC` with PostgreSQL's NULLS FIRST: at most 5 groups of the period; NULL groups lead; the valued ones follow, largest first; a NULL group is left out only when all 5 shown are NULL groups; a valued group is left out only when 5 are shown and every valued one shown sold at least as much; no product appears twice |
| Reports.NullsLast | Backend/db/functions.py:49-60 | under `ASC` with PostgreSQL's NULLS LAST: at most 5 groups of the period; valued groups lead, smallest first; the NULL groups follow; a NULL group is left out only when 5 are shown; a valued group is left out only when the 5 shown are all valued and sold no more than it; no product appears twice |
| Reports.TopSellingAsWritten | Backend/db/functions.py:5-36 | `top_selling` as written returns the `NullsFirst` ranking of the last 30 days, every entry is a product of that period with its total, and no product appears twice |
| Reports.LeastSellingAsWritten | Backend/db/functions.py:40-70 | `least_selling` as written returns the `NullsLast` ranking of the last 30 days, every entry is a product of that period with its total, and no product appears twice |
| Reports.TopSellingNullFirst | Backend/db/functions.py:23 | as written, asked on 0001-01-31 with product A's sales NULL and B's 5 in the period, `top_selling` lists A (reported 0) above B (5) |
| Reports.LeastSellingNullLast | Backend/db/functions.py:57 | as written, with the same data, `least_selling` lists B (5) before A (reported 0) |

## Left out

- Session plumbing is not modelled: opening and closing sessions, the `session` parameter a caller can pass, `get_db_session`, and the `print` logging. Only the commit/rollback outcome is.
- `create_vector_tables` is DDL against PostgreSQL; the constructor of `VectorStore` stands for a freshly created table.
- The cosine distance is floating-point arithmetic done by pgvector. It is the parameter `dist`, and floats are reals.
- Embedding generation (`OllamaEmbeddings`) is a foreign model. It is the function `embed`, so the questions are embedded as one list in the source but each one separately here; the result is the same by the collaborator's contract.
- File I/O is not modelled: whether `faqs.json` exists is a parameter, its parsed contents are a sequence of `Faq`, and the export files (`read_sql`, `to_excel`, `to_csv`, the file names) are not written.
- `datetime.now()` is the parameter `now`. The `__main__` demonstration blocks are not modelled.
- The ORM model file that declares `Producto` and `RegistroInventario` is not part of this model. Their columns are taken from the queries.
- JSON null and SQL NULL in the `meta` column are not distinguished; `JNull` stands for both.
- The frontend (`Frontend/src/...`) and `Backend/rag/test_rag.py` are outside the core.
- Text.ParseInt: accepts only an optional sign followed by ASCII digits. Python's `int()` also strips surrounding whitespace and accepts underscores between digits and non-ASCII decimal digits, so the model rejects some month strings that Python accepts.
- Embeddings.Search: promises no order among rows at equal distance, because the query gives no tie-break and PostgreSQL's order among ties is unspecified.
- Embeddings.VectorStore.Commit, Embeddings.VectorStore.AddEmbedding and Embeddings.VectorStore.AddBatchEmbeddings: after a failure they promise only that the serial did not go back, not by how much it moved. PostgreSQL may have drawn sequence values for the failed `INSERT`, and how many depends on where it failed. Ids stay fresh and increasing either way.
- Embeddings.VectorStore.AddEmbedding: a failing `session.refresh` is modelled as raising after the commit, with the row kept. The `session.rollback()` in the handler cannot undo a commit, so nothing else happens.
- Ingestor.IngestFaqs: does not tell apart an exception from the embedding model and the `IndexError` of too few vectors. Both are `EmbedRaised`, raised before anything is written. A model that returns more vectors than FAQs is not an error in the source, and neither is it here: `embed` gives one vector per question.
- Reports.Sales: `ventas_diarias` is taken to be an integer column, so `SUM` is an integer and `int(r.ventas or 0)` does not change it. The ORM model that declares the column is not part of this model. If the column were fractional, `int()` would cut each total toward zero.
- Reports.TopSelling and Reports.LeastSelling: do not fix the order among products with equal totals, because the query gives no tie-break.

## Findings

| source | as written | input that shows it | evidently intended | confidence | as-written member | corrected member |
|---|---|---|---|---|---|---|
| Backend/db/functions.py:23 | `ORDER BY SUM(ventas_diarias) DESC`: PostgreSQL puts NULL first under DESC, and the code then reports a NULL sum as 0 | product A whose only sales in the period are NULL, product B with sales 5: the result is `[A: 0, B: 5]` | largest total first, NULL counted as 0 (the code already reports NULL as 0): `[B: 5, A: 0]` | medium, not executed; depends on `ventas_diarias` being nullable, which the `r.ventas or 0` guard suggests | Reports.TopSellingNullFirst | Reports.TopSelling |
| Backend/db/functions.py:57 | `ORDER BY SUM(ventas_diarias) ASC`: PostgreSQL puts NULL last under ASC | the same two products: the result is `[B: 5, A: 0]` | smallest total first, so the product reported with 0 sales comes first: `[A: 0, B: 5]` | medium, not executed; same dependency | Reports.LeastSellingNullLast | Reports.LeastSelling |

=== FILE: calendar.dfy ===
/**
 * Proleptic Gregorian dates as Python's `datetime` counts them. An instant
 * is a whole number of seconds since 0001-01-01 00:00; the ordinal of a
 * date follows `date.toordinal()` (0001-01-01 has ordinal 1).
 */
module Calendar {

  const SecondsPerDay: int := 86400
  /** `datetime.MINYEAR` and `datetime.MAXYEAR`. */
  const MinYear: int := 1
  const MaxYear: int := 9999

  predicate IsLeap(y: int)
  {
    y % 4 == 0 && (y % 100 != 0 || y % 400 == 0)
  }

  function DaysInYear(y: int): int
  {
    if IsLeap(y) then 366 else 365
  }

  function DaysInMonth(y: int, m: int): (n: int)
    requires 1 <= m <= 12
    ensures 28 <= n <= 31
  {
    if m == 2 then (if IsLeap(y) then 29 else 28)
    else if m == 4 || m == 6 || m == 9 || m == 11 then 30
    else 31
  }

  /** Days in the years before `y`: `_days_before_year`. */
  function DaysBeforeYear(y: int): int
    requires 1 <= y
  {
    var k := y - 1;
    k * 365 + k / 4 - k / 100 + k / 400
  }

  /** Days in the months of year `y` before month `m`. */
  function DaysBeforeMonth(y: int, m: int): int
    requires 1 <= m <= 12
  {
    if m == 1 then 0 else DaysBeforeMonth(y, m - 1) + DaysInMonth(y, m - 1)
  }

  function Ordinal(y: int, m: int, d: int): int
    requires 1 <= y && 1 <= m <= 12
  {
    DaysBeforeYear(y) + DaysBeforeMonth(y, m) + d
  }

  /** The instant `datetime(y, m, d)`. */
  function Midnight(y: int, m: int, d: int): int
    requires 1 <= y && 1 <= m <= 12
  {
    (Ordinal(y, m, d) - 1) * SecondsPerDay
  }

  /** Consecutive years start `DaysInYear` days apart. */
  lemma YearLength(y: int)
    requires 1 <= y
    ensures DaysBeforeYear(y + 1) - DaysBeforeYear(y) == DaysInYear(y)
  {
    var k := y - 1;
    QuotientSteps(k);
    DivisorChain(y);
    var d4, d100, d400 := (k + 1) / 4 - k / 4, (k + 1) / 100 - k / 100, (k + 1) / 400 - k / 400;
    assert DaysBeforeYear(y + 1) - DaysBeforeYear(y) == 365 + d4 - d100 + d400;
  }

  /** Every fourth century is a century, and every century a fourth year. */
  lemma DivisorChain(y: int)
    ensures y % 400 == 0 ==> y % 100 == 0
    ensures y % 100 == 0 ==> y % 4 == 0
  {
    if y % 400 == 0 {
      var m := 4 * (y / 400);
      assert y == 100 * m;
      assert y / 100 == m;
    }
    if y % 100 == 0 {
      var m := 25 * (y / 100);
      assert y == 4 * m;
      assert y / 4 == m;
    }
  }

  /** Going from `k` to `k + 1` raises `k / n` exactly when `n` divides `k + 1`, for the leap-year divisors. */
  lemma QuotientSteps(k: nat)
    ensures (k + 1) / 4 - k / 4 == if (k + 1) % 4 == 0 then 1 else 0
    ensures (k + 1) / 100 - k / 100 == if (k + 1) % 100 == 0 then 1 else 0
    ensures (k + 1) / 400 - k / 400 == if (k + 1) % 400 == 0 then 1 else 0
  {
  }

  /** The twelve months fill the year. */
  lemma {:induction false} MonthsFillYear(y: int)
    ensures DaysBeforeMonth(y, 12) + DaysInMonth(y, 12) == DaysInYear(y)
  {
    var feb := DaysInMonth(y, 2);
    assert DaysBeforeMonth(y, 2) == 31;
    assert DaysBeforeMonth(y, 3) == 31 + feb;
    assert DaysBeforeMonth(y, 4) == 62 + feb;
    assert DaysBeforeMonth(y, 5) == 92 + feb;
    assert DaysBeforeMonth(y, 6) == 123 + feb;
    assert DaysBeforeMonth(y, 7) == 153 + feb;
    assert DaysBeforeMonth(y, 8) == 184 + feb;
    assert DaysBeforeMonth(y, 9) == 215 + feb;
    assert DaysBeforeMonth(y, 10) == 245 + feb;
    assert DaysBeforeMonth(y, 11) == 276 + feb;
    assert DaysBeforeMonth(y, 12) == 306 + feb;
  }

  /** The first day of month `m` of year `y` and that of the month after it lie `DaysInMonth(y, m)` days apart. */
  lemma NextMonthStart(y: int, m: int)
    requires 1 <= y && 1 <= m <= 12
    ensures m < 12 ==> Midnight(y, m + 1, 1) - Midnight(y, m, 1) == DaysInMonth(y, m) * SecondsPerDay
    ensures m == 12 ==> Midnight(y + 1, 1, 1) - Midnight(y, 12, 1) == DaysInMonth(y, 12) * SecondsPerDay
  {
    if m == 12 {
      YearLength(y);
      MonthsFillYear(y);
    }
  }
}

=== FILE: embeddings.dfy ===
/**
 * The `rag_embeddings` table: records of text, category labels, a JSON
 * attachment and a 768-long embedding, written one at a time or in one
 * atomic batch, searched by distance to a query vector, and wiped in bulk.
 *
 * The database is modelled by the `VectorStore` class: its `rows` are the
 * committed contents of the table in insertion order and `nextId` is the
 * next value of the `id` serial. A failure of the database connection is a
 * `storeFails` parameter; the cosine distance computed by pgvector is a
 * caller-supplied `dist` function.
 */
module Embeddings {

  import opened Wrappers
  import Ranking

  /** Width of the `embedding` column, `Vector(768)`. */
  const Dim: nat := 768
  /** Width of the `group_name` column, `String(100)`. */
  const GroupNameWidth: nat := 100
  /** Width of the `intent` column, `String(150)`. */
  const IntentWidth: nat := 150
  /** Default `top_k` and `threshold` of a similarity search. */
  const DefaultTopK: int := 3
  const DefaultThreshold: real := 0.4

  /** A JSONB value. Python `None` stored in the column is `JNull`. */
  datatype Json =
    | JNull
    | JBool(b: bool)
    | JNumber(n: real)
    | JString(s: string)
    | JArray(elems: seq<Json>)
    | JObject(fields: map<string, Json>)

  /** A row the session holds before the commit gives it an id. */
  datatype Draft = Draft(text: string, groupName: string, intent: string, meta: Json, embedding: seq<real>)

  /** A committed row of `rag_embeddings`. */
  datatype Record = Record(id: nat, text: string, groupName: string, intent: string, meta: Json, embedding: seq<real>)

  /** One element of a batch: `meta == None` means the dict has no `"meta"` key. */
  datatype Item = Item(text: string, groupName: string, intent: string, embedding: seq<real>, meta: Option<Json>)

  /** Why a write is rolled back. */
  datatype WriteError =
    | DimensionMismatch   // the embedding is not `Dim` long
    | ValueTooLong        // `group_name` or `intent` exceeds its column width
    | StoreUnavailable    // any other database failure

  /**
   * PostgreSQL's `varchar(n)` check: a value longer than `n` characters is
   * accepted only when every character past the `n`-th is a space.
   */
  predicate Fits(s: string, width: nat)
  {
    forall i :: width <= i < |s| ==> s[i] == ' '
  }

  /** What a `varchar(n)` column stores of an accepted value: its first `n` characters. */
  function Clip(s: string, width: nat): (c: string)
    ensures |c| == if |s| <= width then |s| else width
    ensures c <= s
    ensures Fits(s, width) ==> forall i :: |c| <= i < |s| ==> s[i] == ' '
    ensures |s| <= width ==> c == s
  {
    if |s| <= width then s else s[..width]
  }

  /** The column constraints a draft must meet to be written. */
  predicate Admissible(d: Draft)
  {
    |d.embedding| == Dim && Fits(d.groupName, GroupNameWidth) && Fits(d.intent, IntentWidth)
  }

  /** What a stored row holds: the labels within their column widths. */
  predicate InColumns(d: Draft)
  {
    |d.embedding| == Dim && |d.groupName| <= GroupNameWidth && |d.intent| <= IntentWidth
  }

  /** Whether some draft's embedding is not `Dim` long. */
  function WrongDimension(ds: seq<Draft>): (b: bool)
    ensures b <==> exists i :: 0 <= i < |ds| && |ds[i].embedding| != Dim
  {
    ds != [] && (|ds[0].embedding| != Dim || WrongDimension(ds[1..]))
  }

  /** Whether some draft has a label its column rejects. */
  function Overlong(ds: seq<Draft>): (b: bool)
    ensures b <==> exists i :: 0 <= i < |ds| && !(Fits(ds[i].groupName, GroupNameWidth) && Fits(ds[i].intent, IntentWidth))
  {
    ds != [] && (!Fits(ds[0].groupName, GroupNameWidth) || !Fits(ds[0].intent, IntentWidth) || Overlong(ds[1..]))
  }

  /**
   * The error validation raises for `ds`, if any. The vector type's bind
   * processor checks every embedding on the client before any row reaches
   * the server, so a wrong dimension anywhere in the batch wins over an
   * over-long label.
   */
  function Rejection(ds: seq<Draft>): (e: Option<WriteError>)
    ensures e.None? <==> forall i :: 0 <= i < |ds| ==> Admissible(ds[i])
    ensures e == Some(DimensionMismatch) <==> exists i :: 0 <= i < |ds| && |ds[i].embedding| != Dim
    ensures e == Some(ValueTooLong) <==>
              (forall i :: 0 <= i < |ds| ==> |ds[i].embedding| == Dim)
              && exists i :: 0 <= i < |ds| && !(Fits(ds[i].groupName, GroupNameWidth) && Fits(ds[i].intent, IntentWidth))
    ensures e != Some(StoreUnavailable)
  {
    if WrongDimension(ds) then Some(DimensionMismatch)
    else if Overlong(ds) then Some(ValueTooLong)
    else None
  }

  /** The error a transaction writing `ds` ends with; `None` means it commits. */
  function WriteOutcome(ds: seq<Draft>, storeFails: bool): Option<WriteError>
  {
    if storeFails then Some(StoreUnavailable) else Rejection(ds)
  }

  function DraftOf(r: Record): Draft
  {
    Draft(r.text, r.groupName, r.intent, r.meta, r.embedding)
  }

  /** The rows without their ids. */
  function Drafts(rs: seq<Record>): (ds: seq<Draft>)
    ensures |ds| == |rs|
    ensures forall i :: 0 <= i < |rs| ==> ds[i] == DraftOf(rs[i])
  {
    if rs == [] then [] else [DraftOf(rs[0])] + Drafts(rs[1..])
  }

  /** A draft as its row stores it: the labels cut to their column widths. */
  function Stored(d: Draft): Draft
  {
    Draft(d.text, Clip(d.groupName, GroupNameWidth), Clip(d.intent, IntentWidth), d.meta, d.embedding)
  }

  /**
   * The rows a commit of `ds` creates: the serial hands out `first`,
   * `first + 1`, ..., and each row holds its draft as the columns store it.
   */
  function Persist(ds: seq<Draft>, first: nat): (rs: seq<Record>)
    ensures |rs| == |ds|
    ensures forall i :: 0 <= i < |ds| ==> rs[i].id == first + i && DraftOf(rs[i]) == Stored(ds[i])
  {
    if ds == [] then []
    else
      var d := Stored(ds[0]);
      [Record(first, d.text, d.groupName, d.intent, d.meta, d.embedding)] + Persist(ds[1..], first + 1)
  }

  /** A row the column checks accept is stored within the columns, and a label already within its width is kept as is. */
  lemma StoredInColumns(d: Draft)
    requires Admissible(d)
    ensures InColumns(Stored(d))
    ensures |d.groupName| <= GroupNameWidth && |d.intent| <= IntentWidth ==> Stored(d) == d
  {
  }

  /** The row `add_embedding` builds: `meta or {}` stores `{}` for `None` and for an empty dict. */
  function SingleDraft(text: string, groupName: string, intent: string, embedding: seq<real>,
                       meta: Option<map<string, Json>>): Draft
  {
    Draft(text, groupName, intent, JObject(if meta.Some? then meta.value else map[]), embedding)
  }

  /** The row `add_batch_embeddings` builds: `it.get("meta", {})` defaults only a missing key. */
  function BatchDraft(it: Item): Draft
  {
    Draft(it.text, it.groupName, it.intent, if it.meta.Some? then it.meta.value else JObject(map[]), it.embedding)
  }

  /** The rows `add_batch_embeddings` builds for `items`, in order. */
  function BatchDrafts(items: seq<Item>): seq<Draft>
  {
    seq(|items|, i requires 0 <= i < |items| => BatchDraft(items[i]))
  }

  /** The two insert paths default `meta` differently. */
  lemma MetaDefaulting(text: string, groupName: string, intent: string, embedding: seq<real>,
                       meta: Option<map<string, Json>>)
    ensures SingleDraft(text, groupName, intent, embedding, meta).meta != JNull
    ensures SingleDraft(text, groupName, intent, embedding, None).meta == JObject(map[])
    ensures SingleDraft(text, groupName, intent, embedding, Some(map[])).meta == JObject(map[])
    ensures BatchDraft(Item(text, groupName, intent, embedding, None)).meta == JObject(map[])
    ensures BatchDraft(Item(text, groupName, intent, embedding, Some(JNull))).meta == JNull
  {
  }

  // ---------------------------------------------------------------------
  // Similarity search
  // ---------------------------------------------------------------------

  /** A label filter: Python treats `None` and `""` as "no filter". */
  predicate Matches(filter: Option<string>, value: string)
  {
    filter.None? || filter.value == "" || filter.value == value
  }

  /** A row passes both label filters and the `distance < threshold` gate. */
  predicate Qualifies(r: Record, query: seq<real>, groupFilter: Option<string>, intentFilter: Option<string>,
                      threshold: real, dist: (seq<real>, seq<real>) -> real)
  {
    Matches(groupFilter, r.groupName) && Matches(intentFilter, r.intent) && dist(query, r.embedding) < threshold
  }

  /** Every qualifying row paired with its distance, before ordering and limiting. */
  function Candidates(rows: seq<Record>, query: seq<real>, groupFilter: Option<string>, intentFilter: Option<string>,
                      threshold: real, dist: (seq<real>, seq<real>) -> real): (cs: seq<(Record, real)>)
    ensures forall c :: c in cs <==>
              c.0 in rows && Qualifies(c.0, query, groupFilter, intentFilter, threshold, dist)
              && c.1 == dist(query, c.0.embedding)
    ensures forall c :: multiset(cs)[c] ==
              if Qualifies(c.0, query, groupFilter, intentFilter, threshold, dist) && c.1 == dist(query, c.0.embedding)
              then multiset(rows)[c.0] else 0
  {
    if rows == [] then []
    else
      var rest := Candidates(rows[1..], query, groupFilter, intentFilter, threshold, dist);
      assert rows == [rows[0]] + rows[1..];
      assert multiset(rows) == multiset([rows[0]]) + multiset(rows[1..]);
      if Qualifies(rows[0], query, groupFilter, intentFilter, threshold, dist) then
        var head := (rows[0], dist(query, rows[0].embedding));
        assert multiset([head] + rest) == multiset([head]) + multiset(rest);
        [head] + rest
      else
        rest
  }

  /** Whatever `r` leaves out of `cs` is no closer than the last of its `k` entries. */
  ghost predicate KeepsClosest(cs: seq<(Record, real)>, r: seq<(Record, real)>, k: int)
  {
    forall c :: c in multiset(cs) - multiset(r) ==> |r| == k && (0 < k ==> r[k - 1].1 <= c.1)
  }

  /** The sort key of a search: `ORDER BY distance`. */
  function Distance(c: (Record, real)): real
  {
    c.1
  }

  /**
   * `similarity_search` over the committed rows. `fails` stands for any
   * exception the query raises besides the two the model derives itself (a
   * query vector that is not `Dim` long, a negative LIMIT); all of them make
   * the result empty.
   */
  function Search(rows: seq<Record>, query: seq<real>, topK: int, groupFilter: Option<string>,
                  intentFilter: Option<string>, threshold: real, dist: (seq<real>, seq<real>) -> real,
                  fails: bool): (r: seq<(Record, real)>)
    ensures fails || |query| != Dim || topK <= 0 ==> r == []
    ensures |r| <= (if topK < 0 then 0 else topK)
    ensures forall i :: 0 <= i < |r| ==>
              r[i].0 in rows && r[i].1 == dist(query, r[i].0.embedding) && r[i].1 < threshold
              && Matches(groupFilter, r[i].0.groupName) && Matches(intentFilter, r[i].0.intent)
    ensures forall i, j :: 0 <= i < j < |r| ==> r[i].1 <= r[j].1
    ensures !fails && |query| == Dim && 0 <= topK ==>
              var cs := Candidates(rows, query, groupFilter, intentFilter, threshold, dist);
              && multiset(r) <= multiset(cs)
              && |r| == (if topK < |cs| then topK else |cs|)
              && KeepsClosest(cs, r, topK)
  {
    if fails || |query| != Dim || topK < 0 then []
    else
      var cs := Candidates(rows, query, groupFilter, intentFilter, threshold, dist);
      var r := Ranking.Smallest(cs, Distance, topK);
      SearchFacts(rows, query, groupFilter, intentFilter, threshold, dist, topK, cs, r);
      r
  }

  /** What `Ranking.Smallest` promises about the candidates, in terms of rows and distances. */
  lemma SearchFacts(rows: seq<Record>, query: seq<real>, groupFilter: Option<string>, intentFilter: Option<string>,
                    threshold: real, dist: (seq<real>, seq<real>) -> real, topK: nat,
                    cs: seq<(Record, real)>, r: seq<(Record, real)>)
    requires cs == Candidates(rows, query, groupFilter, intentFilter, threshold, dist)
    requires r == Ranking.Smallest(cs, Distance, topK)
    ensures forall i :: 0 <= i < |r| ==>
              r[i].0 in rows && r[i].1 == dist(query, r[i].0.embedding) && r[i].1 < threshold
              && Matches(groupFilter, r[i].0.groupName) && Matches(intentFilter, r[i].0.intent)
    ensures forall i, j :: 0 <= i < j < |r| ==> r[i].1 <= r[j].1
    ensures multiset(r) <= multiset(cs)
    ensures |r| == (if topK < |cs| then topK else |cs|)
    ensures KeepsClosest(cs, r, topK)
  {
    Ranking.Members(r, cs);
    CandidateMembers(rows, query, groupFilter, intentFilter, threshold, dist, cs, r);
    DistanceOrder(r);
  }

  /** Entries taken from the candidates are qualifying rows paired with their distance. */
  lemma CandidateMembers(rows: seq<Record>, query: seq<real>, groupFilter: Option<string>, intentFilter: Option<string>,
                         threshold: real, dist: (seq<real>, seq<real>) -> real,
                         cs: seq<(Record, real)>, r: seq<(Record, real)>)
    requires cs == Candidates(rows, query, groupFilter, intentFilter, threshold, dist)
    requires forall i :: 0 <= i < |r| ==> r[i] in cs
    ensures forall i :: 0 <= i < |r| ==>
              r[i].0 in rows && r[i].1 == dist(query, r[i].0.embedding) && r[i].1 < threshold
              && Matches(groupFilter, r[i].0.groupName) && Matches(intentFilter, r[i].0.intent)
  {
    forall i | 0 <= i < |r|
      ensures r[i].0 in rows && r[i].1 == dist(query, r[i].0.embedding) && r[i].1 < threshold
              && Matches(groupFilter, r[i].0.groupName) && Matches(intentFilter, r[i].0.intent)
    {
      assert Qualifies(r[i].0, query, groupFilter, intentFilter, threshold, dist);
    }
  }

  /** Sorted by `Distance` means ordered by the second component. */
  lemma DistanceOrder(r: seq<(Record, real)>)
    requires Ranking.SortedBy(r, Distance)
    ensures forall i, j :: 0 <= i < j < |r| ==> r[i].1 <= r[j].1
  {
    forall i, j | 0 <= i < j < |r| ensures r[i].1 <= r[j].1 {
      assert Distance(r[i]) <= Distance(r[j]);
    }
  }

  /**
   * Search returns the closest qualifying rows: a qualifying row missing from
   * the result is at least as far from the query as the last row returned,
   * and the result is then full.
   */
  lemma {:induction false} SearchKeepsClosest(rows: seq<Record>, query: seq<real>, topK: int,
                                               groupFilter: Option<string>, intentFilter: Option<string>,
                                               threshold: real, dist: (seq<real>, seq<real>) -> real,
                                               r: seq<(Record, real)>, row: Record)
    requires |query| == Dim && 0 < topK
    requires r == Search(rows, query, topK, groupFilter, intentFilter, threshold, dist, false)
    requires row in rows && Qualifies(row, query, groupFilter, intentFilter, threshold, dist)
    requires forall i :: 0 <= i < |r| ==> r[i].0 != row
    ensures |r| == topK && r[topK - 1].1 <= dist(query, row.embedding)
  {
    var cs := Candidates(rows, query, groupFilter, intentFilter, threshold, dist);
    var c := (row, dist(query, row.embedding));
    assert c in multiset(cs);
    assert c !in r;
    assert multiset(r)[c] == 0;
    assert c in multiset(cs) - multiset(r);
  }

  /** A search of an empty table, such as one just wiped, finds nothing. */
  lemma SearchEmptyTable(query: seq<real>, topK: int, groupFilter: Option<string>, intentFilter: Option<string>,
                         threshold: real, dist: (seq<real>, seq<real>) -> real, fails: bool)
    ensures Search([], query, topK, groupFilter, intentFilter, threshold, dist, fails) == []
  {
  }

  /** When no row is closer than the threshold, as with threshold 0 and positive distances, nothing is found. */
  lemma NothingBelowThreshold(rows: seq<Record>, query: seq<real>, topK: int, groupFilter: Option<string>,
                              intentFilter: Option<string>, threshold: real, dist: (seq<real>, seq<real>) -> real,
                              fails: bool)
    requires forall row | row in rows :: threshold <= dist(query, row.embedding)
    ensures Search(rows, query, topK, groupFilter, intentFilter, threshold, dist, fails) == []
  {
  }

  // ---------------------------------------------------------------------
  // The table
  // ---------------------------------------------------------------------

  class VectorStore {
    /** Committed rows, in insertion order. */
    var rows: seq<Record>
    /** Next value of the `id` serial. */
    var nextId: nat

    /** Ids are below the serial and increase with insertion order; every row fits its columns. */
    ghost predicate Valid()
      reads this
    {
      && (forall i :: 0 <= i < |rows| ==> rows[i].id < nextId && InColumns(DraftOf(rows[i])))
      && (forall i, j :: 0 <= i < j < |rows| ==> rows[i].id < rows[j].id)
    }

    ghost function Ids(): set<nat>
      reads this
    {
      set r | r in rows :: r.id
    }

    /** The table's contents without ids. */
    ghost function Contents(): seq<Draft>
      reads this
    {
      Drafts(rows)
    }

    /** A freshly created, empty table; the serial starts at 1. */
    constructor ()
      ensures Valid() && rows == [] && nextId == 1
    {
      rows := [];
      nextId := 1;
    }

    /**
     * One transaction writing `ds`: it commits every draft with consecutive
     * new ids, or it rolls back and leaves the rows as they were. A failed
     * INSERT may have drawn values from the serial, which PostgreSQL does not
     * give back, so after a failure the serial is only known not to go back.
     */
    method Commit(ds: seq<Draft>, storeFails: bool) returns (err: Option<WriteError>)
      requires Valid()
      modifies this
      ensures Valid()
      ensures err == WriteOutcome(ds, storeFails)
      ensures err.None? ==> rows == old(rows) + Persist(ds, old(nextId)) && nextId == old(nextId) + |ds|
      ensures err.Some? ==> rows == old(rows) && old(nextId) <= nextId
    {
      err := WriteOutcome(ds, storeFails);
      if err.None? {
        rows := rows + Persist(ds, nextId);
        nextId := nextId + |ds|;
      }
    }

    /**
     * `add_embedding`: one row in its own transaction. The commit either
     * stores the row with a fresh id or rolls back; after a commit the id is
     * read back (`session.refresh`), and when that fails (`refreshFails`) the
     * error is raised although the row is stored.
     */
    method AddEmbedding(text: string, groupName: string, intent: string, embedding: seq<real>,
                        meta: Option<map<string, Json>>, storeFails: bool, refreshFails: bool)
      returns (r: Result<nat, WriteError>)
      requires Valid()
      modifies this
      ensures Valid()
      ensures r.Success? <==> !storeFails && !refreshFails && Admissible(SingleDraft(text, groupName, intent, embedding, meta))
      ensures r.Success? ==> r.value == old(nextId)
      ensures !storeFails && Admissible(SingleDraft(text, groupName, intent, embedding, meta)) ==>
                && old(nextId) !in old(Ids())
                && (forall x :: x in old(Ids()) ==> x < old(nextId))
                && rows == old(rows) + [Record(old(nextId), text, Clip(groupName, GroupNameWidth), Clip(intent, IntentWidth),
                                               SingleDraft(text, groupName, intent, embedding, meta).meta, embedding)]
                && nextId == old(nextId) + 1
      ensures !storeFails && Admissible(SingleDraft(text, groupName, intent, embedding, meta)) && refreshFails ==>
                r == Failure(StoreUnavailable)
      ensures storeFails || !Admissible(SingleDraft(text, groupName, intent, embedding, meta)) ==>
                && r.Failure?
                && r.error == WriteOutcome([SingleDraft(text, groupName, intent, embedding, meta)], storeFails).value
                && rows == old(rows) && old(nextId) <= nextId
    {
      var d := SingleDraft(text, groupName, intent, embedding, meta);
      var id := nextId;
      var err := Commit([d], storeFails);
      if err.Some? {
        r := Failure(err.value);
      } else if refreshFails {
        r := Failure(StoreUnavailable);
      } else {
        r := Success(id);
      }
    }

    /**
     * `add_batch_embeddings`: an empty list returns 0 without a transaction;
     * otherwise one row per item, in order, in a single commit that either
     * writes them all and returns their number or writes none.
     */
    method AddBatchEmbeddings(items: seq<Item>, storeFails: bool) returns (r: Result<nat, WriteError>)
      requires Valid()
      modifies this
      ensures Valid()
      ensures items == [] ==> r == Success(0) && rows == old(rows) && nextId == old(nextId)
      ensures items != [] ==>
                (r.Success? <==> !storeFails && forall i :: 0 <= i < |items| ==> Admissible(BatchDraft(items[i])))
      ensures r.Success? ==>
                && r.value == |items|
                && |rows| == |old(rows)| + |items|
                && rows[..|old(rows)|] == old(rows)
                && (forall i :: 0 <= i < |items| ==>
                      rows[|old(rows)| + i].id == old(nextId) + i
                      && DraftOf(rows[|old(rows)| + i]) == Stored(BatchDraft(items[i])))
                && nextId == old(nextId) + |items|
      ensures r.Failure? ==> rows == old(rows) && old(nextId) <= nextId
      ensures r.Failure? ==> WriteOutcome(BatchDrafts(items), storeFails) == Some(r.error)
    {
      if items == [] {
        return Success(0);
      }
      var objs: seq<Draft> := [];
      var i := 0;
      while i < |items|
        invariant 0 <= i <= |items|
        invariant |objs| == i
        invariant forall j :: 0 <= j < i ==> objs[j] == BatchDraft(items[j])
      {
        objs := objs + [BatchDraft(items[i])];
        i := i + 1;
      }
      assert objs == BatchDrafts(items);
      ghost var before := rows;
      var err := Commit(objs, storeFails);
      if err.Some? {
        r := Failure(err.value);
      } else {
        assert forall k :: 0 <= k < |items| ==> rows[|before| + k] == Persist(objs, old(nextId))[k];
        assert rows[..|before|] == before;
        r := Success(|objs|);
      }
    }

    /**
     * `similarity_search`: reads the table and never changes it; any failure
     * yields an empty list rather than an error.
     */
    method SimilaritySearch(query: seq<real>, topK: int, groupFilter: Option<string>, intentFilter: Option<string>,
                            threshold: real, dist: (seq<real>, seq<real>) -> real, fails: bool)
      returns (results: seq<(Record, real)>)
      requires Valid()
      ensures results == Search(rows, query, topK, groupFilter, intentFilter, threshold, dist, fails)
    {
      results := Search(rows, query, topK, groupFilter, intentFilter, threshold, dist, fails);
    }

    /**
     * `similarity_search` called with its defaults: at most three rows, no
     * label filter, distance below 0.4.
     */
    method DefaultSearch(query: seq<real>, dist: (seq<real>, seq<real>) -> real, fails: bool)
      returns (results: seq<(Record, real)>)
      requires Valid()
      ensures |results| <= 3
      ensures forall i :: 0 <= i < |results| ==> results[i].0 in rows && results[i].1 < 0.4
      ensures results == Search(rows, query, DefaultTopK, None, None, DefaultThreshold, dist, fails)
    {
      results := SimilaritySearch(query, DefaultTopK, None, None, DefaultThreshold, dist, fails);
    }

    /**
     * `delete_all_embeddings`: empties the table in one transaction and
     * returns how many rows there were; the serial is not reset, so ids are
     * never reused. On failure every row stays and the error is passed on.
     */
    method DeleteAllEmbeddings(storeFails: bool) returns (r: Result<nat, WriteError>)
      requires Valid()
      modifies this
      ensures Valid()
      ensures nextId == old(nextId)
      ensures r.Success? <==> !storeFails
      ensures r.Success? ==> r.value == |old(rows)| && rows == []
      ensures r.Failure? ==> r.error == StoreUnavailable && rows == old(rows)
    {
      if storeFails {
        return Failure(StoreUnavailable);
      }
      var deleted := |rows|;
      rows := [];
      r := Success(deleted);
    }
  }
}

=== FILE: ingestor.dfy ===
/**
 * Loading the static FAQ list into the vector store: one record per
 * question/answer pair, embedded from the question, labelled as a company
 * FAQ and written in a single batch.
 *
 * Reading the JSON file is left to the caller, which passes whether the file
 * exists and its parsed contents; the embedding model is the function
 * `embed`.
 */
module Ingestor {

  import opened Wrappers
  import opened Embeddings

  /** One entry of `faqs.json`. */
  datatype Faq = Faq(pregunta: string, respuesta: string)

  const FaqGroup: string := "faq_empresa"
  const FaqIntent: string := "faq_manual"
  const FaqMeta: Json := JObject(map["tipo" := JString("faq_estatica")])

  /**
   * How a run ends: no file; the records were loaded, `count` being what the
   * batch insert returned (`ingest_faqs` itself returns nothing and drops
   * it); the embedding call raised, or returned fewer vectors than there are
   * FAQs so that indexing them raised; or the batch insert raised.
   */
  datatype IngestOutcome = NoFile | Ingested(count: nat) | EmbedRaised | Raised(error: WriteError)

  const QuestionLabel: string := "Pregunta: "
  const AnswerLabel: string := "\nRespuesta: "

  /** The text a record shows: `f"Pregunta: {pregunta}\nRespuesta: {respuesta}"`. */
  function FaqText(f: Faq): string
  {
    QuestionLabel + f.pregunta + AnswerLabel + f.respuesta
  }

  /** What follows `prefix` in `s`, if `s` starts with it. */
  function StripPrefix(prefix: string, s: string): (r: Option<string>)
    ensures r.Some? <==> prefix <= s
    ensures r.Some? ==> s == prefix + r.value
  {
    if prefix <= s then Some(s[|prefix|..]) else None
  }

  /** Index of the first newline of `s`, or `|s|` when it has none. */
  function FirstNewline(s: string): (i: nat)
    ensures i <= |s|
    ensures forall j :: 0 <= j < i ==> s[j] != '\n'
    ensures i < |s| ==> s[i] == '\n'
  {
    if s == [] || s[0] == '\n' then 0 else 1 + FirstNewline(s[1..])
  }

  /** Reads a record text back into its question and answer, splitting at the first newline. */
  function ParseFaqText(s: string): Option<Faq>
  {
    match StripPrefix(QuestionLabel, s)
    case None => None
    case Some(rest) =>
      var i := FirstNewline(rest);
      match StripPrefix(AnswerLabel, rest[i..])
      case None => None
      case Some(answer) => Some(Faq(rest[..i], answer))
  }

  /** Stripping a prefix from a concatenation gives back the rest. */
  lemma StripConcat(prefix: string, t: string)
    ensures StripPrefix(prefix, prefix + t) == Some(t)
  {
    assert (prefix + t)[|prefix|..] == t;
  }

  /** The first newline of `q + t` is where `t` starts, when only `t` has one at its head. */
  lemma FirstNewlineConcat(q: string, t: string)
    requires '\n' !in q && 0 < |t| && t[0] == '\n'
    ensures FirstNewline(q + t) == |q|
  {
    var s := q + t;
    assert forall j :: 0 <= j < |q| ==> s[j] == q[j] && s[j] != '\n';
    assert s[|q|] == '\n';
  }

  /** A question without a line break can be read back, with its answer, from the record text. */
  lemma FaqTextRoundTrip(f: Faq)
    requires '\n' !in f.pregunta
    ensures ParseFaqText(FaqText(f)) == Some(f)
  {
    var tail := AnswerLabel + f.respuesta;
    var rest := f.pregunta + tail;
    assert FaqText(f) == QuestionLabel + rest;
    StripConcat(QuestionLabel, rest);
    FirstNewlineConcat(f.pregunta, tail);
    assert rest[..|f.pregunta|] == f.pregunta;
    assert rest[|f.pregunta|..] == tail;
    StripConcat(AnswerLabel, f.respuesta);
  }

  /** The batch item built for one FAQ, given its question's embedding. */
  function FaqItem(f: Faq, vector: seq<real>): Item
  {
    Item(FaqText(f), FaqGroup, FaqIntent, vector, Some(FaqMeta))
  }

  /**
   * The loop of `ingest_faqs`: the questions are embedded together, then one
   * item per FAQ is appended, in order.
   */
  method BuildItems(faqs: seq<Faq>, embed: string -> seq<real>) returns (items: seq<Item>)
    ensures |items| == |faqs|
    ensures forall i :: 0 <= i < |faqs| ==>
              && items[i].text == "Pregunta: " + faqs[i].pregunta + "\nRespuesta: " + faqs[i].respuesta
              && items[i].groupName == FaqGroup
              && items[i].intent == FaqIntent
              && items[i].meta == Some(FaqMeta)
              && items[i].embedding == embed(faqs[i].pregunta)
  {
    var questions := seq(|faqs|, i requires 0 <= i < |faqs| => faqs[i].pregunta);
    var vectors := seq(|questions|, i requires 0 <= i < |questions| => embed(questions[i]));
    items := [];
    var i := 0;
    while i < |faqs|
      invariant 0 <= i <= |faqs|
      invariant |items| == i
      invariant forall j :: 0 <= j < i ==> items[j] == FaqItem(faqs[j], embed(faqs[j].pregunta))
    {
      items := items + [FaqItem(faqs[i], vectors[i])];
      i := i + 1;
    }
  }

  /** The record draft one FAQ becomes. */
  function FaqDraft(f: Faq, embed: string -> seq<real>): Draft
  {
    Draft(FaqText(f), FaqGroup, FaqIntent, FaqMeta, embed(f.pregunta))
  }

  function FaqDrafts(faqs: seq<Faq>, embed: string -> seq<real>): seq<Draft>
  {
    seq(|faqs|, i requires 0 <= i < |faqs| => FaqDraft(faqs[i], embed))
  }

  /** Every question embeds to a vector of the column's dimension. */
  predicate VectorsFit(faqs: seq<Faq>, embed: string -> seq<real>)
  {
    forall i :: 0 <= i < |faqs| ==> |embed(faqs[i].pregunta)| == Dim
  }

  /**
   * `ingest_faqs`: when the file exists, every FAQ goes into the store in one
   * all-or-nothing batch, appended after what is already there (nothing is
   * deleted first, so a second run adds the same records again). The
   * embedding model is called before anything is written: `embedFails` says
   * that it raised or came back with too few vectors.
   */
  method IngestFaqs(store: VectorStore, fileExists: bool, faqs: seq<Faq>, embed: string -> seq<real>,
                    embedFails: bool, storeFails: bool) returns (r: IngestOutcome)
    requires store.Valid()
    modifies store
    ensures store.Valid()
    ensures !fileExists ==> r == NoFile && store.rows == old(store.rows) && store.nextId == old(store.nextId)
    ensures fileExists ==> r != NoFile
    ensures r.EmbedRaised? <==> fileExists && embedFails
    ensures r.EmbedRaised? ==> store.rows == old(store.rows) && store.nextId == old(store.nextId)
    ensures r.Ingested? ==> r.count == |faqs| && store.Contents() == old(store.Contents()) + FaqDrafts(faqs, embed)
    ensures r.Raised? ==> store.rows == old(store.rows) && old(store.nextId) <= store.nextId
    ensures r.Raised? <==> fileExists && !embedFails && faqs != [] && (storeFails || !VectorsFit(faqs, embed))
    ensures r.Raised? ==> r.error == if storeFails then StoreUnavailable else DimensionMismatch
  {
    if !fileExists {
      return NoFile;
    }
    if embedFails {
      return EmbedRaised;
    }
    var items := BuildItems(faqs, embed);
    FaqItemsAdmissible(faqs, embed, items);
    ghost var before := store.rows;
    var res := store.AddBatchEmbeddings(items, storeFails);
    if res.Failure? {
      FaqBatchError(faqs, embed, items, storeFails, res.error);
      return Raised(res.error);
    }
    ContentsAfterAppend(before, store.rows, FaqDrafts(faqs, embed));
    r := Ingested(res.value);
  }

  /** A failed FAQ batch raises the store error, or else the dimension error: the fixed labels always fit. */
  lemma FaqBatchError(faqs: seq<Faq>, embed: string -> seq<real>, items: seq<Item>, storeFails: bool, e: WriteError)
    requires |items| == |faqs|
    requires forall i :: 0 <= i < |faqs| ==> items[i] == FaqItem(faqs[i], embed(faqs[i].pregunta))
    requires WriteOutcome(BatchDrafts(items), storeFails) == Some(e)
    ensures e == if storeFails then StoreUnavailable else DimensionMismatch
  {
    var ds := BatchDrafts(items);
    assert |FaqGroup| <= GroupNameWidth && |FaqIntent| <= IntentWidth;
    assert forall i :: 0 <= i < |ds| ==> Fits(ds[i].groupName, GroupNameWidth) && Fits(ds[i].intent, IntentWidth);
  }

  /**
   * The items are the FAQ drafts, their short labels are stored unclipped, and
   * only the vector length can make the batch fail validation.
   */
  lemma FaqItemsAdmissible(faqs: seq<Faq>, embed: string -> seq<real>, items: seq<Item>)
    requires |items| == |faqs|
    requires forall i :: 0 <= i < |faqs| ==> items[i] == FaqItem(faqs[i], embed(faqs[i].pregunta))
    ensures forall i :: 0 <= i < |items| ==> Stored(BatchDraft(items[i])) == FaqDrafts(faqs, embed)[i]
    ensures (forall i :: 0 <= i < |items| ==> Admissible(BatchDraft(items[i]))) <==> VectorsFit(faqs, embed)
  {
    assert |FaqGroup| <= GroupNameWidth && |FaqIntent| <= IntentWidth;
    forall i | 0 <= i < |items| ensures Stored(BatchDraft(items[i])) == FaqDrafts(faqs, embed)[i] {
      assert BatchDraft(items[i]) == FaqDraft(faqs[i], embed);
    }
  }

  /** Rows that extend `before` by drafts that match `ds` have `ds` appended to their contents. */
  lemma ContentsAfterAppend(before: seq<Record>, after: seq<Record>, ds: seq<Draft>)
    requires |after| == |before| + |ds|
    requires after[..|before|] == before
    requires forall i :: 0 <= i < |ds| ==> DraftOf(after[|before| + i]) == ds[i]
    ensures Drafts(after) == Drafts(before) + ds
  {
    var a := Drafts(after);
    var b := Drafts(before) + ds;
    assert |a| == |b|;
    forall k | 0 <= k < |a| ensures a[k] == b[k] {
      if k < |before| {
        assert after[k] == before[k];
      } else {
        assert a[k] == DraftOf(after[|before| + (k - |before|)]);
      }
    }
  }
}

=== FILE: ranking.dfy ===
/**
 * Ordering by a real-valued key and keeping the first `k` elements, as an
 * `ORDER BY key LIMIT k` clause does. The sort is stable, but no contract here
 * says how ties are ordered: SQL leaves that unspecified.
 */
module Ranking {

  /** `s` is in non-decreasing order of `key`. */
  ghost predicate SortedBy<T>(s: seq<T>, key: T -> real)
  {
    forall i, j :: 0 <= i < j < |s| ==> key(s[i]) <= key(s[j])
  }

  /** Places `x` before the first element of `s` whose key is larger. */
  function Insert<T>(x: T, s: seq<T>, key: T -> real): (r: seq<T>)
    ensures |r| == |s| + 1
    ensures forall i :: 0 <= i < |r| ==> r[i] == x || r[i] in s
    ensures multiset(r) == multiset(s) + multiset{x}
  {
    if s == [] || key(x) <= key(s[0]) then
      [x] + s
    else
      assert s == [s[0]] + s[1..];
      [s[0]] + Insert(x, s[1..], key)
  }

  /** A head no larger than every element of a sorted tail gives a sorted sequence. */
  lemma ConsSorted<T>(h: T, t: seq<T>, key: T -> real)
    requires SortedBy(t, key)
    requires forall j :: 0 <= j < |t| ==> key(h) <= key(t[j])
    ensures SortedBy([h] + t, key)
  {
    var r := [h] + t;
    forall i, j | 0 <= i < j < |r| ensures key(r[i]) <= key(r[j]) {
      assert r[j] == t[j - 1];
      if i > 0 {
        assert r[i] == t[i - 1];
      }
    }
  }

  /** Inserting into a sorted sequence keeps it sorted. */
  lemma {:induction false} InsertSorted<T>(x: T, s: seq<T>, key: T -> real)
    requires SortedBy(s, key)
    ensures SortedBy(Insert(x, s, key), key)
  {
    if s == [] || key(x) <= key(s[0]) {
      ConsSorted(x, s, key);
    } else {
      var rest := Insert(x, s[1..], key);
      InsertSorted(x, s[1..], key);
      forall j | 0 <= j < |rest| ensures key(s[0]) <= key(rest[j]) {
        if rest[j] != x {
          var k :| 0 <= k < |s[1..]| && s[1..][k] == rest[j];
          assert s[k + 1] == rest[j];
        }
      }
      ConsSorted(s[0], rest, key);
    }
  }

  /** Sorts `s` by `key` (insertion sort). */
  function SortBy<T>(s: seq<T>, key: T -> real): (r: seq<T>)
    ensures |r| == |s|
    ensures multiset(r) == multiset(s)
    ensures SortedBy(r, key)
  {
    if s == [] then []
    else
      assert s == [s[0]] + s[1..];
      var t := SortBy(s[1..], key);
      InsertSorted(s[0], t, key);
      Insert(s[0], t, key)
  }
  /**
   * The `k` elements of `s` with the smallest keys, in key order: sorts, then
   * keeps a prefix. Every element left out has a key no smaller than the last
   * one kept.
   */
  function Smallest<T>(s: seq<T>, key: T -> real, k: nat): (r: seq<T>)
    ensures |r| == if k < |s| then k else |s|
    ensures SortedBy(r, key)
    ensures multiset(r) <= multiset(s)
    ensures forall x :: x in multiset(s) - multiset(r) ==>
              |r| == k && (0 < k ==> key(r[k - 1]) <= key(x))
  {
    var t := SortBy(s, key);
    var m := if k < |t| then k else |t|;
    PrefixBound(t, key, m);
    t[..m]
  }

  /** Every element of a sub-multiset of `s` occurs in `s`. */
  lemma Members<T>(r: seq<T>, s: seq<T>)
    requires multiset(r) <= multiset(s)
    ensures forall i :: 0 <= i < |r| ==> r[i] in s
  {
    forall i | 0 <= i < |r| ensures r[i] in s {
      assert r[i] in multiset(r);
    }
  }

  /** What `Smallest` leaves out of `s` is bounded below by its last entry. */
  lemma LeftOut<T>(s: seq<T>, key: T -> real, k: nat, r: seq<T>)
    requires r == Smallest(s, key, k)
    ensures forall x :: x in s && x !in r ==> |r| == k && (0 < k ==> key(r[k - 1]) <= key(x))
  {
    forall x | x in s && x !in r ensures |r| == k && (0 < k ==> key(r[k - 1]) <= key(x)) {
      assert x in multiset(s) - multiset(r);
    }
  }

  /** What is cut off a sorted sequence is bounded below by the last kept element. */
  lemma {:induction false} PrefixBound<T>(t: seq<T>, key: T -> real, m: nat)
    requires m <= |t|
    requires SortedBy(t, key)
    ensures multiset(t[..m]) <= multiset(t)
    ensures forall x :: x in multiset(t) - multiset(t[..m]) ==>
              x in t[m..] && (0 < m ==> key(t[m - 1]) <= key(x))
  {
    assert t == t[..m] + t[m..];
    assert multiset(t) == multiset(t[..m]) + multiset(t[m..]);
    forall x | x in multiset(t) - multiset(t[..m])
      ensures x in t[m..] && (0 < m ==> key(t[m - 1]) <= key(x))
    {
      assert x in multiset(t[m..]);
      var j :| 0 <= j < |t[m..]| && t[m..][j] == x;
      assert t[m + j] == x;
    }
  }

  /** A single element is its own ranking. */
  lemma SmallestSingleton<T>(x: T, key: T -> real, k: nat)
    requires 0 < k
    ensures Smallest([x], key, k) == [x]
  {
    var r := Smallest([x], key, k);
    assert r[0] in multiset(r);
  }
}

=== FILE: reports.dfy ===
/**
 * Sales reporting over the inventory log: the date window of an export
 * (a calendar month given as "YYYY-MM", or the last 30 days), the rows an
 * export contains, and the five best- and worst-selling products of the
 * last 30 days.
 *
 * Instants are seconds since 0001-01-01 00:00 (see `Calendar`); the current
 * time is the parameter `now`. The SQL queries are modelled as functions over
 * the rows of the `productos` and `registro_inventario` tables.
 */
module Reports {

  import opened Wrappers
  import opened Calendar
  import Text
  import Ranking

  /** Length of the default window and of the ranking period. */
  const Period: int := 30 * SecondsPerDay
  /** Number of products a ranking returns. */
  const RankingSize: nat := 5

  datatype Product = Product(id: int, name: string)

  datatype InventoryRecord = InventoryRecord(
    id: int,
    productId: int,
    createdAt: int,
    quantityAvailable: int,
    dailySales: Option<int>,   // `ventas_diarias`; `None` is SQL NULL
    totalValue: real)

  /** A half-open interval of instants `[start, end)`. */
  datatype Window = Window(start: int, end: int)

  predicate InWindow(w: Window, t: int)
  {
    w.start <= t < w.end
  }

  /** Both raise an exception in the source. */
  datatype ReportError =
    | MalformedMonth    // not two integers around one "-"
    | DateOutOfRange    // `datetime` rejects the month or the year

  datatype Format = Excel | Csv

  /** What an export writes: its window and the selected rows. */
  datatype Report = Report(format: Format, window: Window, rows: seq<InventoryRecord>)

  // ---------------------------------------------------------------------
  // The month window
  // ---------------------------------------------------------------------

  /**
   * Reads "YYYY-MM" into a year and a month: the string must split at "-"
   * into exactly two pieces, each an integer as `int()` reads it; anything
   * else is a `ValueError`.
   */
  function ParseMonth(s: string): (r: Result<(int, int), ReportError>)
    ensures r.Failure? ==> r.error == MalformedMonth
  {
    var parts := Text.Split(s, '-');
    if |parts| != 2 then Failure(MalformedMonth)
    else
      match (Text.ParseInt(parts[0]), Text.ParseInt(parts[1]))
      case (Some(y), Some(m)) => Success((y, m))
      case _ => Failure(MalformedMonth)
  }

  /** The form callers send, e.g. "2025-01": the year, a dash, the month on two digits. */
  function ShowMonth(y: nat, m: nat): string
  {
    Text.ShowNat(y) + "-" + (if m < 10 then "0" + Text.ShowNat(m) else Text.ShowNat(m))
  }

  /** Two integers around one dash parse as a year and a month. */
  lemma ParseDashed(a: string, b: string, y: int, m: int)
    requires '-' !in a && '-' !in b
    requires Text.ParseInt(a) == Some(y) && Text.ParseInt(b) == Some(m)
    ensures ParseMonth(a + "-" + b) == Success((y, m))
  {
    assert Text.Join([a, b], '-') == a + "-" + b;
    Text.SplitJoin([a, b], '-');
  }

  /** Conversely, a string that parses is two dash-free integers around one dash. */
  lemma ParseMonthShape(s: string, y: int, m: int)
    requires ParseMonth(s) == Success((y, m))
    ensures exists a, b :: s == a + "-" + b && '-' !in a && '-' !in b
                           && Text.ParseInt(a) == Some(y) && Text.ParseInt(b) == Some(m)
  {
    var parts := Text.Split(s, '-');
    Text.JoinSplit(s, '-');
    assert Text.Join(parts, '-') == parts[0] + "-" + parts[1];
    assert s == parts[0] + "-" + parts[1];
  }

  /** Parsing reads back the year and month of a well-formed month string. */
  lemma ParseShowMonth(y: nat, m: nat)
    ensures ParseMonth(ShowMonth(y, m)) == Success((y, m))
  {
    YearPiece(y);
    MonthPiece(m);
    ParseDashed(Text.ShowNat(y), if m < 10 then "0" + Text.ShowNat(m) else Text.ShowNat(m), y, m);
  }

  /** The printed year has no dash and reads back as the year. */
  lemma YearPiece(y: nat)
    ensures '-' !in Text.ShowNat(y) && Text.ParseInt(Text.ShowNat(y)) == Some(y)
  {
    var a := Text.ShowNat(y);
    Text.ParseIntShowNat(y);
    assert forall i :: 0 <= i < |a| ==> a[i] != '-';
  }

  /** The printed month, padded to two digits, has no dash and reads back as the month. */
  lemma MonthPiece(m: nat)
    ensures var b := if m < 10 then "0" + Text.ShowNat(m) else Text.ShowNat(m);
            '-' !in b && Text.ParseInt(b) == Some(m)
  {
    var b := if m < 10 then "0" + Text.ShowNat(m) else Text.ShowNat(m);
    Text.ParseIntShowNat(m);
    Text.LeadingZero(Text.ShowNat(m));
    assert forall i :: 0 <= i < |b| ==> b[i] != '-';
  }

  /**
   * `[datetime(y, m, 1), first day of the next month)`, where December rolls
   * over into January of `y + 1`. `datetime` accepts years 1 to 9999 only,
   * so "9999-12" fails too.
   */
  function MonthBounds(y: int, m: int): (r: Result<Window, ReportError>)
    ensures r.Success? <==> 1 <= m <= 12 && MinYear <= y && (y < MaxYear || (y == MaxYear && m < 12))
    ensures r.Success? ==>
              && r.value.start == Midnight(y, m, 1)
              && r.value.end - r.value.start == DaysInMonth(y, m) * SecondsPerDay
              && r.value.start < r.value.end
  {
    if !(1 <= m <= 12) || !(MinYear <= y <= MaxYear) then Failure(DateOutOfRange)
    else if m == 12 then
      if y + 1 > MaxYear then Failure(DateOutOfRange)
      else
        NextMonthStart(y, m);
        Success(Window(Midnight(y, 12, 1), Midnight(y + 1, 1, 1)))
    else
      NextMonthStart(y, m);
      Success(Window(Midnight(y, m, 1), Midnight(y, m + 1, 1)))
  }

  /**
   * The window of `generate_excel` and `generate_csv`: the named month when
   * `month` is a non-empty string, else the 30 days up to `now`.
   */
  function ReportWindow(month: Option<string>, now: int): (r: Result<Window, ReportError>)
    ensures month.None? || month.value == "" ==> r == Success(Window(now - Period, now))
    ensures month.Some? && month.value != "" ==>
              (r.Success? <==> ParseMonth(month.value).Success?
                               && MonthBounds(ParseMonth(month.value).value.0, ParseMonth(month.value).value.1).Success?)
    ensures month.Some? && month.value != "" && ParseMonth(month.value).Success? ==>
              r == MonthBounds(ParseMonth(month.value).value.0, ParseMonth(month.value).value.1)
    ensures month.Some? && month.value != "" && ParseMonth(month.value).Failure? ==> r == Failure(MalformedMonth)
    ensures r.Success? ==> r.value.start < r.value.end
  {
    if month.None? || month.value == "" then Success(Window(now - Period, now))
    else
      match ParseMonth(month.value)
      case Failure(e) => Failure(e)
      case Success((y, m)) => MonthBounds(y, m)
  }

  /**
   * Any spelling `int()` accepts names the same month: a year and a month
   * written as dash-free integers around one dash (signs and leading zeros
   * allowed) give the window of that month.
   */
  lemma DashedWindow(a: string, b: string, y: int, m: int, now: int)
    requires '-' !in a && '-' !in b
    requires Text.ParseInt(a) == Some(y) && Text.ParseInt(b) == Some(m)
    ensures ReportWindow(Some(a + "-" + b), now) == MonthBounds(y, m)
  {
    ParseDashed(a, b, y, m);
  }

  /** Asking for "YYYY-MM" gives exactly the days of that month. */
  lemma MonthWindowSpansMonth(y: nat, m: nat)
    requires 1 <= m <= 12 && MinYear <= y && (y < MaxYear || (y == MaxYear && m < 12))
    ensures var r := ReportWindow(Some(ShowMonth(y, m)), 0);
            && r.Success?
            && r.value.start == Midnight(y, m, 1)
            && r.value.end - r.value.start == DaysInMonth(y, m) * SecondsPerDay
  {
    ParseShowMonth(y, m);
  }

  /** The rows with `inicio <= created_at < fin`, in table order. */
  function Export(records: seq<InventoryRecord>, w: Window): (r: seq<InventoryRecord>)
    ensures |r| <= |records|
    ensures forall x :: x in r <==> x in records && InWindow(w, x.createdAt)
    ensures forall x :: multiset(r)[x] == if InWindow(w, x.createdAt) then multiset(records)[x] else 0
  {
    if records == [] then []
    else
      var rest := Export(records[1..], w);
      assert records == [records[0]] + records[1..];
      assert multiset(records) == multiset([records[0]]) + multiset(records[1..]);
      if InWindow(w, records[0].createdAt) then
        assert multiset([records[0]] + rest) == multiset([records[0]]) + multiset(rest);
        [records[0]] + rest
      else rest
  }

  /** `generate_excel` / `generate_csv` without the file I/O: the window and the exported rows. */
  function Generate(format: Format, month: Option<string>, now: int, records: seq<InventoryRecord>)
    : (r: Result<Report, ReportError>)
    ensures r.Success? <==> ReportWindow(month, now).Success?
    ensures r.Failure? ==> r.error == ReportWindow(month, now).error
    ensures r.Success? ==>
              && r.value.format == format
              && r.value.window == ReportWindow(month, now).value
              && (forall x :: x in r.value.rows <==> x in records && InWindow(r.value.window, x.createdAt))
              && (forall x :: multiset(r.value.rows)[x] ==
                    if InWindow(r.value.window, x.createdAt) then multiset(records)[x] else 0)
  {
    match ReportWindow(month, now)
    case Failure(e) => Failure(e)
    case Success(w) => Success(Report(format, w, Export(records, w)))
  }

  /**
   * The spreadsheet and the CSV export select the same window and rows. This
   * holds by construction: the window and query blocks of the two exports
   * (Backend/db/functions.py:81-103 and 123-146) are the same code.
   */
  lemma FormatsAgree(month: Option<string>, now: int, records: seq<InventoryRecord>)
    ensures Generate(Excel, month, now, records).Success? == Generate(Csv, month, now, records).Success?
    ensures Generate(Excel, month, now, records).Success? ==>
              && Generate(Excel, month, now, records).value.window == Generate(Csv, month, now, records).value.window
              && Generate(Excel, month, now, records).value.rows == Generate(Csv, month, now, records).value.rows
  {
  }

  // ---------------------------------------------------------------------
  // Best- and worst-selling products
  // ---------------------------------------------------------------------

  /** One entry of a ranking: `{"product": name, "ventas": total}`. */
  datatype Ranked = Ranked(product: string, ventas: int)

  /** Sort keys: `ORDER BY ... DESC` is ascending order of the negated total. */
  function Descending(g: Ranked): real
  {
    -(g.ventas as real)
  }

  function Ascending(g: Ranked): real
  {
    g.ventas as real
  }

  /** The rows of `rec` joined with its product (the inner join on `product_id`). */
  function JoinProduct(products: seq<Product>, rec: InventoryRecord): (r: seq<(string, Option<int>)>)
    ensures forall s :: s in r <==> s.1 == rec.dailySales && Product(rec.productId, s.0) in products
    ensures forall s :: multiset(r)[s] ==
              if s.1 == rec.dailySales then multiset(products)[Product(rec.productId, s.0)] else 0
  {
    if products == [] then []
    else
      var rest := JoinProduct(products[1..], rec);
      assert products == [products[0]] + products[1..];
      assert multiset(products) == multiset([products[0]]) + multiset(products[1..]);
      if products[0].id == rec.productId then
        var head := (products[0].name, rec.dailySales);
        assert multiset([head] + rest) == multiset([head]) + multiset(rest);
        [head] + rest
      else rest
  }

  /** Product name and daily sales of every joined row with `created_at >= cutoff`. */
  function Sales(products: seq<Product>, records: seq<InventoryRecord>, cutoff: int)
    : (r: seq<(string, Option<int>)>)
    ensures forall rec, p :: rec in records && p in products && p.id == rec.productId && cutoff <= rec.createdAt ==>
              (p.name, rec.dailySales) in r
    ensures forall s :: s in r ==>
              exists rec :: rec in records && cutoff <= rec.createdAt
                            && s.1 == rec.dailySales && Product(rec.productId, s.0) in products
  {
    if records == [] then []
    else
      var rest := Sales(products, records[1..], cutoff);
      assert records == [records[0]] + records[1..];
      if cutoff <= records[0].createdAt then JoinProduct(products, records[0]) + rest else rest
  }

  /** The joined rows of consecutive stretches of the log are concatenated, in log order. */
  lemma {:induction false} SalesAppend(products: seq<Product>, a: seq<InventoryRecord>, b: seq<InventoryRecord>,
                                       cutoff: int)
    ensures Sales(products, a + b, cutoff) == Sales(products, a, cutoff) + Sales(products, b, cutoff)
  {
    if a != [] {
      SalesAppend(products, a[1..], b, cutoff);
      assert (a + b)[1..] == a[1..] + b;
    } else {
      assert a + b == b;
    }
  }

  /** Summing a concatenation adds the two sums. */
  lemma {:induction false} TotalAppend(a: seq<(string, Option<int>)>, b: seq<(string, Option<int>)>, name: string)
    ensures Total(a + b, name) == Total(a, name) + Total(b, name)
  {
    if a != [] {
      TotalAppend(a[1..], b, name);
      assert (a + b)[1..] == a[1..] + b;
    } else {
      assert a + b == b;
    }
  }

  /**
   * One inventory record adds its daily sales (NULL as 0) to its product's
   * total once for every `productos` row with its id and that name.
   */
  lemma {:induction false} JoinTotal(products: seq<Product>, rec: InventoryRecord, name: string)
    ensures Total(JoinProduct(products, rec), name)
            == multiset(products)[Product(rec.productId, name)] * Coalesce(rec.dailySales)
  {
    if products != [] {
      var key := Product(rec.productId, name);
      var c := Coalesce(rec.dailySales);
      var h := if products[0] == key then 1 else 0;
      var head: seq<(string, Option<int>)> := if products[0].id == rec.productId then [(products[0].name, rec.dailySales)] else [];
      var rest := JoinProduct(products[1..], rec);
      JoinTotal(products[1..], rec, name);
      CountCons(products, key);
      assert JoinProduct(products, rec) == head + rest;
      TotalAppend(head, rest, name);
      assert Total(head, name) == if h == 1 then c else 0 by {
        if head != [] {
          assert head[1..] == [];
        }
      }
      CountTimes(h, multiset(products[1..])[key], c);
    }
  }

  lemma CountTimes(h: int, m: int, c: int)
    requires h == 0 || h == 1
    ensures (h + m) * c == (if h == 1 then c else 0) + m * c
  {
  }

  /** How often `key` occurs in a non-empty sequence, by its head and tail. */
  lemma CountCons(products: seq<Product>, key: Product)
    requires products != []
    ensures multiset(products)[key] == (if products[0] == key then 1 else 0) + multiset(products[1..])[key]
  {
    assert products == [products[0]] + products[1..];
  }

  /** Appending a record to the log adds its contribution to every product's total of the period. */
  lemma RecordContribution(products: seq<Product>, records: seq<InventoryRecord>, rec: InventoryRecord,
                           cutoff: int, name: string)
    ensures Total(Sales(products, records + [rec], cutoff), name)
            == Total(Sales(products, records, cutoff), name)
               + (if cutoff <= rec.createdAt then multiset(products)[Product(rec.productId, name)] * Coalesce(rec.dailySales)
                  else 0)
  {
    SalesAppend(products, records, [rec], cutoff);
    TotalAppend(Sales(products, records, cutoff), Sales(products, [rec], cutoff), name);
    JoinTotal(products, rec, name);
    assert [rec][1..] == [];
    assert JoinProduct(products, rec) + [] == JoinProduct(products, rec);
  }

  /** The distinct product names of `sales` (the GROUP BY keys). */
  function Names(sales: seq<(string, Option<int>)>): (ns: seq<string>)
    ensures forall i, j :: 0 <= i < j < |ns| ==> ns[i] != ns[j]
    ensures forall n :: n in ns <==> exists i :: 0 <= i < |sales| && sales[i].0 == n
  {
    if sales == [] then []
    else
      var init := Names(sales[..|sales| - 1]);
      var n := sales[|sales| - 1].0;
      assert forall i :: 0 <= i < |sales| - 1 ==> sales[..|sales| - 1][i] == sales[i];
      if n in init then init else init + [n]
  }

  /** The sales of `name`, counting a NULL as 0. */
  function Total(sales: seq<(string, Option<int>)>, name: string): int
  {
    if sales == [] then 0
    else
      (if sales[0].0 == name && sales[0].1.Some? then sales[0].1.value else 0) + Total(sales[1..], name)
  }

  /**
   * `SUM(ventas_diarias)` for one group: NULLs are skipped and a group of
   * NULLs only sums to NULL, which `int(r.ventas or 0)` reports as 0.
   */
  function SqlSum(sales: seq<(string, Option<int>)>, name: string): (t: Option<int>)
    ensures t.None? <==> forall i :: 0 <= i < |sales| && sales[i].0 == name ==> sales[i].1.None?
    ensures Coalesce(t) == Total(sales, name)
  {
    if sales == [] then None
    else
      var rest := SqlSum(sales[1..], name);
      assert forall i :: 1 <= i < |sales| ==> sales[1..][i - 1] == sales[i];
      if sales[0].0 != name || sales[0].1.None? then rest
      else Some(sales[0].1.value + if rest.Some? then rest.value else 0)
  }

  function Coalesce(t: Option<int>): int
  {
    if t.Some? then t.value else 0
  }

  /** Every group with its summed sales, NULL shown as 0. */
  function Groups(sales: seq<(string, Option<int>)>): (gs: seq<Ranked>)
    ensures forall g :: g in gs <==> g.product in Names(sales) && g.ventas == Total(sales, g.product)
    ensures forall i, j :: 0 <= i < j < |gs| ==> gs[i].product != gs[j].product
  {
    var ns := Names(sales);
    var gs := seq(|ns|, i requires 0 <= i < |ns| => Ranked(ns[i], Coalesce(SqlSum(sales, ns[i]))));
    assert forall g :: g in gs <==> g.product in ns && g.ventas == Total(sales, g.product) by {
      forall g ensures g in gs <==> g.product in ns && g.ventas == Total(sales, g.product) {
        if g.product in ns && g.ventas == Total(sales, g.product) {
          var i :| 0 <= i < |ns| && ns[i] == g.product;
          assert gs[i] == g;
        }
      }
    }
    gs
  }

  /** The groups of the 30 days up to `now`. */
  ghost function PeriodGroups(products: seq<Product>, records: seq<InventoryRecord>, now: int): seq<Ranked>
  {
    Groups(Sales(products, records, now - Period))
  }

  /** A subsequence-by-multiset of a sequence with distinct products has distinct products. */
  lemma DistinctProducts(r: seq<Ranked>, gs: seq<Ranked>)
    requires multiset(r) <= multiset(gs)
    requires forall i, j :: 0 <= i < j < |gs| ==> gs[i].product != gs[j].product
    ensures forall i, j :: 0 <= i < j < |r| ==> r[i].product != r[j].product
  {
    forall i, j | 0 <= i < j < |r| ensures r[i].product != r[j].product {
      if r[i].product == r[j].product {
        assert r[i] in multiset(gs) && r[j] in multiset(gs);
        var a :| 0 <= a < |gs| && gs[a] == r[i];
        var b :| 0 <= b < |gs| && gs[b] == r[j];
        assert a == b;
        assert r == r[..j] + [r[j]] + r[j + 1..];
        assert r[i] in r[..j];
        assert multiset(r)[r[i]] >= 2;
        AtMostOnce(gs, r[i]);
        assert false;
      }
    }
  }

  /** In a sequence with distinct products an element occurs at most once. */
  lemma {:induction false} AtMostOnce(gs: seq<Ranked>, x: Ranked)
    requires forall i, j :: 0 <= i < j < |gs| ==> gs[i].product != gs[j].product
    ensures multiset(gs)[x] <= 1
  {
    if gs != [] {
      AtMostOnce(gs[1..], x);
      assert gs == [gs[0]] + gs[1..];
      if gs[0] == x {
        assert x !in gs[1..];
      }
    }
  }

  /**
   * `top_selling` with the ordering its authors meant: the products of the
   * last 30 days by summed sales, largest first, NULL counted as 0, at most 5.
   */
  function TopSelling(products: seq<Product>, records: seq<InventoryRecord>, now: int): (r: seq<Ranked>)
    ensures |r| <= RankingSize
    ensures forall i, j :: 0 <= i < j < |r| ==> r[i].ventas >= r[j].ventas
    ensures forall i :: 0 <= i < |r| ==> r[i] in PeriodGroups(products, records, now)
    ensures forall i, j :: 0 <= i < j < |r| ==> r[i].product != r[j].product
    ensures forall g :: g in PeriodGroups(products, records, now) && g !in r ==>
              |r| == RankingSize && g.ventas <= r[RankingSize - 1].ventas
  {
    var gs := Groups(Sales(products, records, now - Period));
    var r := Ranking.Smallest(gs, Descending, RankingSize);
    DescendingFacts(gs, r);
    r
  }

  /** `least_selling`: the same groups, smallest total first, at most 5. */
  function LeastSelling(products: seq<Product>, records: seq<InventoryRecord>, now: int): (r: seq<Ranked>)
    ensures |r| <= RankingSize
    ensures forall i, j :: 0 <= i < j < |r| ==> r[i].ventas <= r[j].ventas
    ensures forall i :: 0 <= i < |r| ==> r[i] in PeriodGroups(products, records, now)
    ensures forall i, j :: 0 <= i < j < |r| ==> r[i].product != r[j].product
    ensures forall g :: g in PeriodGroups(products, records, now) && g !in r ==>
              |r| == RankingSize && r[RankingSize - 1].ventas <= g.ventas
  {
    var gs := Groups(Sales(products, records, now - Period));
    var r := Ranking.Smallest(gs, Ascending, RankingSize);
    AscendingFacts(gs, r);
    r
  }

  /** What `Ranking.Smallest` promises under the descending key, in terms of totals. */
  lemma DescendingFacts(gs: seq<Ranked>, r: seq<Ranked>)
    requires r == Ranking.Smallest(gs, Descending, RankingSize)
    requires forall i, j :: 0 <= i < j < |gs| ==> gs[i].product != gs[j].product
    ensures |r| <= RankingSize
    ensures forall i, j :: 0 <= i < j < |r| ==> r[i].ventas >= r[j].ventas
    ensures forall i :: 0 <= i < |r| ==> r[i] in gs
    ensures forall i, j :: 0 <= i < j < |r| ==> r[i].product != r[j].product
    ensures forall g :: g in gs && g !in r ==> |r| == RankingSize && g.ventas <= r[RankingSize - 1].ventas
  {
    Ranking.Members(r, gs);
    DistinctProducts(r, gs);
    Ranking.LeftOut(gs, Descending, RankingSize, r);
    forall i, j | 0 <= i < j < |r| ensures r[i].ventas >= r[j].ventas {
      assert Descending(r[i]) <= Descending(r[j]);
    }
    forall g | g in gs && g !in r ensures |r| == RankingSize && g.ventas <= r[RankingSize - 1].ventas {
      assert Descending(r[RankingSize - 1]) <= Descending(g);
    }
  }

  /** What `Ranking.Smallest` promises under the ascending key, in terms of totals. */
  lemma AscendingFacts(gs: seq<Ranked>, r: seq<Ranked>)
    requires r == Ranking.Smallest(gs, Ascending, RankingSize)
    requires forall i, j :: 0 <= i < j < |gs| ==> gs[i].product != gs[j].product
    ensures |r| <= RankingSize
    ensures forall i, j :: 0 <= i < j < |r| ==> r[i].ventas <= r[j].ventas
    ensures forall i :: 0 <= i < |r| ==> r[i] in gs
    ensures forall i, j :: 0 <= i < j < |r| ==> r[i].product != r[j].product
    ensures forall g :: g in gs && g !in r ==> |r| == RankingSize && r[RankingSize - 1].ventas <= g.ventas
  {
    Ranking.Members(r, gs);
    DistinctProducts(r, gs);
    Ranking.LeftOut(gs, Ascending, RankingSize, r);
    forall i, j | 0 <= i < j < |r| ensures r[i].ventas <= r[j].ventas {
      assert Ascending(r[i]) <= Ascending(r[j]);
    }
    forall g | g in gs && g !in r ensures |r| == RankingSize && r[RankingSize - 1].ventas <= g.ventas {
      assert Ascending(r[RankingSize - 1]) <= Ascending(g);
    }
  }

  // ---------------------------------------------------------------------
  // The rankings as written: PostgreSQL places NULL first under DESC and
  // last under ASC, while the reported total shows NULL as 0.
  // ---------------------------------------------------------------------

  /** A group whose `SUM(ventas_diarias)` is NULL: every sale of its product was NULL. */
  predicate NullSum(sales: seq<(string, Option<int>)>, g: Ranked)
  {
    SqlSum(sales, g.product).None?
  }

  /** The groups of `ns` whose SQL sum is NULL, reported as 0. */
  function NullGroups(sales: seq<(string, Option<int>)>, ns: seq<string>): (r: seq<Ranked>)
    ensures forall g :: g in r <==> g.product in ns && NullSum(sales, g) && g.ventas == 0
  {
    if ns == [] then []
    else
      var rest := NullGroups(sales, ns[1..]);
      assert ns == [ns[0]] + ns[1..];
      (if SqlSum(sales, ns[0]).None? then [Ranked(ns[0], 0)] else []) + rest
  }

  /** The groups of `ns` whose SQL sum is a number, with that number. */
  function ValueGroups(sales: seq<(string, Option<int>)>, ns: seq<string>): (r: seq<Ranked>)
    ensures forall g :: g in r <==> g.product in ns && !NullSum(sales, g) && g.ventas == Total(sales, g.product)
  {
    if ns == [] then []
    else
      var t := SqlSum(sales, ns[0]);
      var rest := ValueGroups(sales, ns[1..]);
      assert ns == [ns[0]] + ns[1..];
      (if t.Some? then [Ranked(ns[0], t.value)] else []) + rest
  }

  function Prefix(s: seq<Ranked>, k: nat): (r: seq<Ranked>)
    ensures |r| == if k < |s| then k else |s|
    ensures forall i :: 0 <= i < |r| ==> r[i] == s[i]
  {
    if k < |s| then s[..k] else s
  }

  /** Both kinds of group of a period are among its groups, as the source reports them. */
  lemma SplitGroups(sales: seq<(string, Option<int>)>, g: Ranked)
    ensures g in NullGroups(sales, Names(sales)) || g in ValueGroups(sales, Names(sales)) <==> g in Groups(sales)
    ensures g in NullGroups(sales, Names(sales)) ==> NullSum(sales, g)
    ensures g in ValueGroups(sales, Names(sales)) ==> !NullSum(sales, g)
  {
  }

  /**
   * The five groups of `sales` under `DESC`, where PostgreSQL sorts NULL
   * first: the NULL groups lead, the others follow from the largest total
   * down, and a group is left out only behind five that rank before it.
   */
  function NullsFirst(sales: seq<(string, Option<int>)>): (r: seq<Ranked>)
    ensures |r| <= RankingSize
    ensures forall i :: 0 <= i < |r| ==> r[i] in Groups(sales)
    ensures forall i, j :: 0 <= i < j < |r| && NullSum(sales, r[j]) ==> NullSum(sales, r[i])
    ensures forall i, j :: 0 <= i < j < |r| && !NullSum(sales, r[i]) && !NullSum(sales, r[j]) ==>
              r[i].ventas >= r[j].ventas
    ensures forall g :: g in Groups(sales) && NullSum(sales, g) && g !in r ==>
              |r| == RankingSize && forall i :: 0 <= i < |r| ==> NullSum(sales, r[i])
    ensures forall g :: g in Groups(sales) && !NullSum(sales, g) && g !in r ==>
              |r| == RankingSize && forall i :: 0 <= i < |r| && !NullSum(sales, r[i]) ==> r[i].ventas >= g.ventas
    ensures Distinct(r)
  {
    var ns := Names(sales);
    var nulls := NullGroups(sales, ns);
    var values := ValueGroups(sales, ns);
    var top := Ranking.Smallest(values, Descending, RankingSize);
    var r := Prefix(nulls + top, RankingSize);
    TopAsWrittenFacts(sales, nulls, values, top, r);
    TopDistinct(sales);
    GroupsSplit(sales);
    r
  }

  /**
   * The five groups of `sales` under `ASC`, where PostgreSQL sorts NULL
   * last: the groups with a total from the smallest up, then the NULL groups.
   */
  function NullsLast(sales: seq<(string, Option<int>)>): (r: seq<Ranked>)
    ensures |r| <= RankingSize
    ensures forall i :: 0 <= i < |r| ==> r[i] in Groups(sales)
    ensures forall i, j :: 0 <= i < j < |r| && NullSum(sales, r[i]) ==> NullSum(sales, r[j])
    ensures forall i, j :: 0 <= i < j < |r| && !NullSum(sales, r[i]) && !NullSum(sales, r[j]) ==>
              r[i].ventas <= r[j].ventas
    ensures forall g :: g in Groups(sales) && NullSum(sales, g) && g !in r ==> |r| == RankingSize
    ensures forall g :: g in Groups(sales) && !NullSum(sales, g) && g !in r ==>
              |r| == RankingSize && forall i :: 0 <= i < |r| ==> !NullSum(sales, r[i]) && r[i].ventas <= g.ventas
    ensures Distinct(r)
  {
    var ns := Names(sales);
    var nulls := NullGroups(sales, ns);
    var values := ValueGroups(sales, ns);
    var bottom := Ranking.Smallest(values, Ascending, RankingSize);
    var r := Prefix(bottom + nulls, RankingSize);
    LeastAsWrittenFacts(sales, nulls, values, bottom, r);
    LeastDistinct(sales);
    GroupsSplit(sales);
    r
  }

  /** `top_selling` as written: `ORDER BY SUM(ventas_diarias) DESC LIMIT 5` over the last 30 days. */
  function TopSellingAsWritten(products: seq<Product>, records: seq<InventoryRecord>, now: int): (r: seq<Ranked>)
    ensures r == NullsFirst(Sales(products, records, now - Period))
    ensures forall i :: 0 <= i < |r| ==> r[i] in PeriodGroups(products, records, now)
    ensures Distinct(r)
  {
    NullsFirst(Sales(products, records, now - Period))
  }

  /** `least_selling` as written: `ORDER BY SUM(ventas_diarias) ASC LIMIT 5` over the last 30 days. */
  function LeastSellingAsWritten(products: seq<Product>, records: seq<InventoryRecord>, now: int): (r: seq<Ranked>)
    ensures r == NullsLast(Sales(products, records, now - Period))
    ensures forall i :: 0 <= i < |r| ==> r[i] in PeriodGroups(products, records, now)
    ensures Distinct(r)
  {
    NullsLast(Sales(products, records, now - Period))
  }

  /** The ordering facts behind `TopSellingAsWritten`, for any split into NULL and valued groups. */
  lemma TopAsWrittenFacts(sales: seq<(string, Option<int>)>, nulls: seq<Ranked>, values: seq<Ranked>,
                          top: seq<Ranked>, r: seq<Ranked>)
    requires forall g :: g in nulls ==> NullSum(sales, g)
    requires forall g :: g in values ==> !NullSum(sales, g)
    requires top == Ranking.Smallest(values, Descending, RankingSize)
    requires r == Prefix(nulls + top, RankingSize)
    ensures forall i :: 0 <= i < |r| ==> r[i] in nulls || r[i] in values
    ensures forall i, j :: 0 <= i < j < |r| && NullSum(sales, r[j]) ==> NullSum(sales, r[i])
    ensures forall i, j :: 0 <= i < j < |r| && !NullSum(sales, r[i]) && !NullSum(sales, r[j]) ==>
              r[i].ventas >= r[j].ventas
    ensures forall g :: g in nulls && g !in r ==> |r| == RankingSize && forall i :: 0 <= i < |r| ==> NullSum(sales, r[i])
    ensures forall g :: g in values && g !in r ==>
              |r| == RankingSize && forall i :: 0 <= i < |r| && !NullSum(sales, r[i]) ==> r[i].ventas >= g.ventas
  {
    Ranking.Members(top, values);
    Ranking.LeftOut(values, Descending, RankingSize, top);
    ConcatParts(nulls, top, r);
    TopOrder(sales, nulls, values, top, r);
    forall g | g in nulls && g !in r
      ensures |r| == RankingSize && forall i :: 0 <= i < |r| ==> NullSum(sales, r[i])
    {
      MissingFromHead(nulls, top, r, g);
    }
    forall g | g in values && g !in r
      ensures |r| == RankingSize && forall i :: 0 <= i < |r| && !NullSum(sales, r[i]) ==> r[i].ventas >= g.ventas
    {
      TopMissingValue(sales, nulls, top, r, g);
    }
  }

  /** Every group of `sales` is a NULL group or a valued group, and nothing else is. */
  lemma GroupsSplit(sales: seq<(string, Option<int>)>)
    ensures forall g :: g in NullGroups(sales, Names(sales)) || g in ValueGroups(sales, Names(sales)) <==> g in Groups(sales)
  {
    forall g ensures g in NullGroups(sales, Names(sales)) || g in ValueGroups(sales, Names(sales)) <==> g in Groups(sales) {
      SplitGroups(sales, g);
    }
  }

  /** The `DESC` ranking as written lists each product at most once. */
  lemma TopDistinct(sales: seq<(string, Option<int>)>)
    ensures var ns := Names(sales);
            Distinct(Prefix(NullGroups(sales, ns) + Ranking.Smallest(ValueGroups(sales, ns), Descending, RankingSize), RankingSize))
  {
    var ns := Names(sales);
    var top := Ranking.Smallest(ValueGroups(sales, ns), Descending, RankingSize);
    SplitDistinct(sales, ns, top, NullGroups(sales, ns), top, Prefix(NullGroups(sales, ns) + top, RankingSize));
  }

  /** The `ASC` ranking as written lists each product at most once. */
  lemma LeastDistinct(sales: seq<(string, Option<int>)>)
    ensures var ns := Names(sales);
            Distinct(Prefix(Ranking.Smallest(ValueGroups(sales, ns), Ascending, RankingSize) + NullGroups(sales, ns), RankingSize))
  {
    var ns := Names(sales);
    var bottom := Ranking.Smallest(ValueGroups(sales, ns), Ascending, RankingSize);
    SplitDistinct(sales, ns, bottom, bottom, NullGroups(sales, ns), Prefix(bottom + NullGroups(sales, ns), RankingSize));
  }

  /**
   * A cut-off join of the NULL groups and a selection of the valued groups,
   * in either order, lists each product at most once.
   */
  lemma SplitDistinct(sales: seq<(string, Option<int>)>, ns: seq<string>, part: seq<Ranked>,
                      a: seq<Ranked>, b: seq<Ranked>, r: seq<Ranked>)
    requires forall i, j :: 0 <= i < j < |ns| ==> ns[i] != ns[j]
    requires multiset(part) <= multiset(ValueGroups(sales, ns))
    requires (a == NullGroups(sales, ns) && b == part) || (a == part && b == NullGroups(sales, ns))
    requires r == Prefix(a + b, RankingSize)
    ensures Distinct(r)
  {
    var values := ValueGroups(sales, ns);
    NullGroupsDistinct(sales, ns);
    ValueGroupsDistinct(sales, ns);
    DistinctProducts(part, values);
    Ranking.Members(part, values);
    DistinctPrefix(a, b, r);
  }

  predicate Distinct(r: seq<Ranked>)
  {
    forall i, j :: 0 <= i < j < |r| ==> r[i].product != r[j].product
  }

  /** Over distinct names, the NULL groups have distinct products. */
  lemma {:induction false} NullGroupsDistinct(sales: seq<(string, Option<int>)>, ns: seq<string>)
    requires forall i, j :: 0 <= i < j < |ns| ==> ns[i] != ns[j]
    ensures Distinct(NullGroups(sales, ns))
  {
    if ns != [] {
      NullGroupsDistinct(sales, ns[1..]);
      var rest := NullGroups(sales, ns[1..]);
      FreshName(ns, rest);
      DistinctCons(if SqlSum(sales, ns[0]).None? then [Ranked(ns[0], 0)] else [], rest, ns[0]);
    }
  }

  /** Over distinct names, the valued groups have distinct products. */
  lemma {:induction false} ValueGroupsDistinct(sales: seq<(string, Option<int>)>, ns: seq<string>)
    requires forall i, j :: 0 <= i < j < |ns| ==> ns[i] != ns[j]
    ensures Distinct(ValueGroups(sales, ns))
  {
    if ns != [] {
      ValueGroupsDistinct(sales, ns[1..]);
      var rest := ValueGroups(sales, ns[1..]);
      var t := SqlSum(sales, ns[0]);
      FreshName(ns, rest);
      DistinctCons(if t.Some? then [Ranked(ns[0], t.value)] else [], rest, ns[0]);
    }
  }

  /** Groups drawn from the later names of a distinct list miss the first name. */
  lemma FreshName(ns: seq<string>, rest: seq<Ranked>)
    requires ns != []
    requires forall i, j :: 0 <= i < j < |ns| ==> ns[i] != ns[j]
    requires forall g :: g in rest ==> g.product in ns[1..]
    ensures forall g :: g in rest ==> g.product != ns[0]
  {
    forall g | g in rest ensures g.product != ns[0] {
      var k :| 0 <= k < |ns[1..]| && ns[1..][k] == g.product;
      assert ns[k + 1] == g.product;
    }
  }

  /** At most one group of a new product in front of distinct groups keeps them distinct. */
  lemma DistinctCons(head: seq<Ranked>, rest: seq<Ranked>, name: string)
    requires |head| <= 1 && forall g :: g in head ==> g.product == name
    requires Distinct(rest) && forall g :: g in rest ==> g.product != name
    ensures Distinct(head + rest)
  {
    var r := head + rest;
    forall i, j | 0 <= i < j < |r| ensures r[i].product != r[j].product {
      if i < |head| {
        assert r[i] == head[0] && r[j] == rest[j - |head|] && r[j] in rest;
      } else {
        assert r[i] == rest[i - |head|] && r[j] == rest[j - |head|];
      }
    }
  }

  /** Two parts with distinct products and no product in common stay distinct when joined and cut off. */
  lemma DistinctPrefix(a: seq<Ranked>, b: seq<Ranked>, r: seq<Ranked>)
    requires Distinct(a) && Distinct(b)
    requires forall x, y :: x in a && y in b ==> x.product != y.product
    requires r == Prefix(a + b, RankingSize)
    ensures Distinct(r)
  {
    ConcatParts(a, b, r);
    forall i, j | 0 <= i < j < |r| ensures r[i].product != r[j].product {
      if j < |a| {
      } else if i < |a| {
        assert r[i] in a && r[j] in b;
      } else {
        assert r[i] == b[i - |a|] && r[j] == b[j - |a|];
      }
    }
  }

  /** Where the entries of a cut-off concatenation come from. */
  lemma ConcatParts(a: seq<Ranked>, b: seq<Ranked>, r: seq<Ranked>)
    requires r == Prefix(a + b, RankingSize)
    ensures |r| == if RankingSize < |a| + |b| then RankingSize else |a| + |b|
    ensures forall i :: 0 <= i < |r| && i < |a| ==> r[i] == a[i]
    ensures forall i :: 0 <= i < |r| && |a| <= i ==> r[i] == b[i - |a|]
  {
  }

  /** An element of the head that the cut-off drops means the whole result comes from the head. */
  lemma MissingFromHead(a: seq<Ranked>, b: seq<Ranked>, r: seq<Ranked>, g: Ranked)
    requires r == Prefix(a + b, RankingSize)
    requires g in a && g !in r
    ensures |r| == RankingSize && forall i :: 0 <= i < |r| ==> r[i] in a
  {
    ConcatParts(a, b, r);
    var k :| 0 <= k < |a| && a[k] == g;
    assert (a + b)[k] == g;
    assert RankingSize <= k;
    forall i | 0 <= i < |r| ensures r[i] in a {
      assert r[i] == a[i];
    }
  }

  /** NULL groups come first and the valued ones follow from the largest total down. */
  lemma TopOrder(sales: seq<(string, Option<int>)>, nulls: seq<Ranked>, values: seq<Ranked>,
                 top: seq<Ranked>, r: seq<Ranked>)
    requires forall g :: g in nulls ==> NullSum(sales, g)
    requires forall g :: g in values ==> !NullSum(sales, g)
    requires Ranking.SortedBy(top, Descending)
    requires forall i :: 0 <= i < |top| ==> top[i] in values
    requires |r| <= |nulls| + |top|
    requires forall i :: 0 <= i < |r| && i < |nulls| ==> r[i] == nulls[i]
    requires forall i :: 0 <= i < |r| && |nulls| <= i ==> r[i] == top[i - |nulls|]
    ensures forall i :: 0 <= i < |r| ==> r[i] in nulls || r[i] in values
    ensures forall i, j :: 0 <= i < j < |r| && NullSum(sales, r[j]) ==> NullSum(sales, r[i])
    ensures forall i, j :: 0 <= i < j < |r| && !NullSum(sales, r[i]) && !NullSum(sales, r[j]) ==>
              r[i].ventas >= r[j].ventas
  {
    var n := |nulls|;
    forall i | 0 <= i < |r| ensures (i < n ==> NullSum(sales, r[i])) && (n <= i ==> !NullSum(sales, r[i])) {
      if i < n {
        assert r[i] in nulls;
      } else {
        assert r[i] in values;
      }
    }
    forall i, j | 0 <= i < j < |r| && !NullSum(sales, r[i]) && !NullSum(sales, r[j])
      ensures r[i].ventas >= r[j].ventas
    {
      assert Descending(top[i - n]) <= Descending(top[j - n]);
    }
  }

  /** A valued group left out is no larger than any valued group shown. */
  lemma TopMissingValue(sales: seq<(string, Option<int>)>, nulls: seq<Ranked>, top: seq<Ranked>,
                        r: seq<Ranked>, g: Ranked)
    requires forall g :: g in nulls ==> NullSum(sales, g)
    requires Ranking.SortedBy(top, Descending)
    requires |r| == if RankingSize < |nulls| + |top| then RankingSize else |nulls| + |top|
    requires forall i :: 0 <= i < |r| && i < |nulls| ==> r[i] == nulls[i]
    requires forall i :: 0 <= i < |r| && |nulls| <= i ==> r[i] == top[i - |nulls|]
    requires g !in top ==> |top| == RankingSize && Descending(top[RankingSize - 1]) <= Descending(g)
    requires g !in r
    ensures |r| == RankingSize && forall i :: 0 <= i < |r| && !NullSum(sales, r[i]) ==> r[i].ventas >= g.ventas
  {
    var n := |nulls|;
    var k := if g in top then IndexOf(top, g) else RankingSize - 1;
    assert 0 <= k < |top| && Descending(top[k]) <= Descending(g);
    assert n + k < |r| ==> r[n + k] == top[k];
    assert |r| <= n + k || top[k] != g;
    forall i | 0 <= i < |r| && !NullSum(sales, r[i]) ensures r[i].ventas >= g.ventas {
      ValuedAfterNulls(sales, nulls, r, i);
      assert Descending(top[i - n]) <= Descending(top[k]);
    }
  }

  /** The position of an element of `s`. */
  function IndexOf(s: seq<Ranked>, x: Ranked): (k: nat)
    requires x in s
    ensures k < |s| && s[k] == x
  {
    if s[0] == x then 0 else 1 + IndexOf(s[1..], x)
  }

  /** An entry whose sum is not NULL sits after the NULL groups. */
  lemma ValuedAfterNulls(sales: seq<(string, Option<int>)>, nulls: seq<Ranked>, r: seq<Ranked>, i: nat)
    requires forall g :: g in nulls ==> NullSum(sales, g)
    requires forall j :: 0 <= j < |r| && j < |nulls| ==> r[j] == nulls[j]
    requires i < |r| && !NullSum(sales, r[i])
    ensures |nulls| <= i
  {
    forall j | 0 <= j < |r| && j < |nulls| ensures NullSum(sales, r[j]) {
      assert r[j] in nulls;
    }
  }

  /** The ordering facts behind `LeastSellingAsWritten`, for any split into NULL and valued groups. */
  lemma LeastAsWrittenFacts(sales: seq<(string, Option<int>)>, nulls: seq<Ranked>, values: seq<Ranked>,
                            bottom: seq<Ranked>, r: seq<Ranked>)
    requires forall g :: g in nulls ==> NullSum(sales, g)
    requires forall g :: g in values ==> !NullSum(sales, g)
    requires bottom == Ranking.Smallest(values, Ascending, RankingSize)
    requires r == Prefix(bottom + nulls, RankingSize)
    ensures forall i :: 0 <= i < |r| ==> r[i] in nulls || r[i] in values
    ensures forall i, j :: 0 <= i < j < |r| && NullSum(sales, r[i]) ==> NullSum(sales, r[j])
    ensures forall i, j :: 0 <= i < j < |r| && !NullSum(sales, r[i]) && !NullSum(sales, r[j]) ==>
              r[i].ventas <= r[j].ventas
    ensures forall g :: g in nulls && g !in r ==> |r| == RankingSize
    ensures forall g :: g in values && g !in r ==>
              |r| == RankingSize && forall i :: 0 <= i < |r| ==> !NullSum(sales, r[i]) && r[i].ventas <= g.ventas
  {
    Ranking.Members(bottom, values);
    Ranking.LeftOut(values, Ascending, RankingSize, bottom);
    ConcatParts(bottom, nulls, r);
    LeastOrder(sales, nulls, values, bottom, r);
    forall g | g in nulls && g !in r ensures |r| == RankingSize {
      MissingFromTail(bottom, nulls, r, g);
    }
    forall g | g in values && g !in r
      ensures |r| == RankingSize && forall i :: 0 <= i < |r| ==> !NullSum(sales, r[i]) && r[i].ventas <= g.ventas
    {
      LeastMissingValue(sales, nulls, values, bottom, r, g);
    }
  }

  /** An element of the tail that the cut-off drops means the result is full. */
  lemma MissingFromTail(a: seq<Ranked>, b: seq<Ranked>, r: seq<Ranked>, g: Ranked)
    requires r == Prefix(a + b, RankingSize)
    requires g in b && g !in r
    ensures |r| == RankingSize
  {
    var k :| 0 <= k < |b| && b[k] == g;
    assert (a + b)[|a| + k] == g;
  }

  /** Valued groups come first from the smallest total up, and the NULL groups follow. */
  lemma LeastOrder(sales: seq<(string, Option<int>)>, nulls: seq<Ranked>, values: seq<Ranked>,
                   bottom: seq<Ranked>, r: seq<Ranked>)
    requires forall g :: g in nulls ==> NullSum(sales, g)
    requires forall g :: g in values ==> !NullSum(sales, g)
    requires Ranking.SortedBy(bottom, Ascending)
    requires forall i :: 0 <= i < |bottom| ==> bottom[i] in values
    requires |r| <= |bottom| + |nulls|
    requires forall i :: 0 <= i < |r| && i < |bottom| ==> r[i] == bottom[i]
    requires forall i :: 0 <= i < |r| && |bottom| <= i ==> r[i] == nulls[i - |bottom|]
    ensures forall i :: 0 <= i < |r| ==> r[i] in nulls || r[i] in values
    ensures forall i, j :: 0 <= i < j < |r| && NullSum(sales, r[i]) ==> NullSum(sales, r[j])
    ensures forall i, j :: 0 <= i < j < |r| && !NullSum(sales, r[i]) && !NullSum(sales, r[j]) ==>
              r[i].ventas <= r[j].ventas
  {
    var m := |bottom|;
    forall i | 0 <= i < |r| ensures (i < m ==> !NullSum(sales, r[i])) && (m <= i ==> NullSum(sales, r[i])) {
      if i < m {
        assert r[i] in values;
      } else {
        assert r[i] in nulls;
      }
    }
    forall i, j | 0 <= i < j < |r| && !NullSum(sales, r[i]) && !NullSum(sales, r[j])
      ensures r[i].ventas <= r[j].ventas
    {
      assert Ascending(bottom[i]) <= Ascending(bottom[j]);
    }
  }

  /** A valued group left out means five valued groups no larger than it are shown, and nothing else. */
  lemma LeastMissingValue(sales: seq<(string, Option<int>)>, nulls: seq<Ranked>, values: seq<Ranked>,
                          bottom: seq<Ranked>, r: seq<Ranked>, g: Ranked)
    requires forall g :: g in values ==> !NullSum(sales, g)
    requires Ranking.SortedBy(bottom, Ascending)
    requires forall i :: 0 <= i < |bottom| ==> bottom[i] in values
    requires |bottom| <= RankingSize
    requires g in values && g !in bottom ==> |bottom| == RankingSize && Ascending(bottom[RankingSize - 1]) <= Ascending(g)
    requires r == Prefix(bottom + nulls, RankingSize)
    requires g in values && g !in r
    ensures |r| == RankingSize && forall i :: 0 <= i < |r| ==> !NullSum(sales, r[i]) && r[i].ventas <= g.ventas
  {
    ConcatParts(bottom, nulls, r);
    forall k | 0 <= k < |bottom| ensures bottom[k] != g {
      assert r[k] == bottom[k];
    }
    forall i | 0 <= i < |r| ensures !NullSum(sales, r[i]) && r[i].ventas <= g.ventas {
      assert bottom[i] in values;
      assert Ascending(bottom[i]) <= Ascending(bottom[RankingSize - 1]);
    }
  }

  /** The instant the example rankings are asked for: 0001-01-31 00:00, so the period starts at 0001-01-01. */
  const ExampleNow: int := Period

  /** Product "A" sold NULL, product "B" sold 5, both at the start of the period ending at `ExampleNow`. */
  function ExampleProducts(): seq<Product>
  {
    [Product(1, "A"), Product(2, "B")]
  }

  function ExampleRecords(): seq<InventoryRecord>
  {
    [InventoryRecord(1, 1, 0, 10, None, 0.0), InventoryRecord(2, 2, 0, 10, Some(5), 0.0)]
  }

  /** Each example record joins with its own product only. */
  lemma ExampleJoins()
    ensures JoinProduct(ExampleProducts(), ExampleRecords()[0]) == [("A", None)]
    ensures JoinProduct(ExampleProducts(), ExampleRecords()[1]) == [("B", Some(5))]
  {
    var ps := ExampleProducts();
    assert ps[1..] == [ps[1]];
    assert ps[1..][1..] == [];
  }

  lemma ExampleSales()
    ensures Sales(ExampleProducts(), ExampleRecords(), ExampleNow - Period) == [("A", None), ("B", Some(5))]
    ensures Names([("A", None), ("B", Some(5))]) == ["A", "B"]
    ensures SqlSum([("A", None), ("B", Some(5))], "A") == None
    ensures SqlSum([("A", None), ("B", Some(5))], "B") == Some(5)
  {
    ExampleJoinedRows();
    ExampleNames();
  }

  lemma ExampleJoinedRows()
    ensures Sales(ExampleProducts(), ExampleRecords(), ExampleNow - Period) == [("A", None), ("B", Some(5))]
  {
    var ps := ExampleProducts();
    var rs := ExampleRecords();
    ExampleJoins();
    assert rs[1..] == [rs[1]];
    assert rs[1..][1..] == [];
    assert Sales(ps, rs[1..], ExampleNow - Period) == [("B", Some(5))];
  }

  lemma ExampleNames()
    ensures Names([("A", None), ("B", Some(5))]) == ["A", "B"]
    ensures SqlSum([("A", None), ("B", Some(5))], "A") == None
    ensures SqlSum([("A", None), ("B", Some(5))], "B") == Some(5)
  {
    ExampleNameList();
    ExampleSums();
  }

  lemma ExampleNameList()
    ensures Names([("A", None), ("B", Some(5))]) == ["A", "B"]
  {
    var sales: seq<(string, Option<int>)> := [("A", None), ("B", Some(5))];
    assert sales[..1] == [("A", None)];
    assert sales[..1][..0] == [];
    assert Names(sales[..1]) == ["A"];
  }

  lemma ExampleSums()
    ensures SqlSum([("A", None), ("B", Some(5))], "A") == None
    ensures SqlSum([("A", None), ("B", Some(5))], "B") == Some(5)
  {
    var sales: seq<(string, Option<int>)> := [("A", None), ("B", Some(5))];
    assert sales[1..] == [("B", Some(5))];
    assert sales[1..][1..] == [];
  }

  /** The groups of the example, split by whether their SQL sum is NULL. */
  lemma ExampleGroups()
    ensures NullGroups([("A", None), ("B", Some(5))], ["A", "B"]) == [Ranked("A", 0)]
    ensures ValueGroups([("A", None), ("B", Some(5))], ["A", "B"]) == [Ranked("B", 5)]
  {
    ExampleNames();
    var sales := [("A", None), ("B", Some(5))];
    var ns := ["A", "B"];
    assert ns[1..] == ["B"];
    assert ns[1..][1..] == [];
    assert NullGroups(sales, ns[1..]) == [] + NullGroups(sales, []);
    assert ValueGroups(sales, ns[1..]) == [Ranked("B", 5)] + ValueGroups(sales, []);
  }

  /** Under DESC the NULL group of the example comes before the one with a total. */
  lemma ExampleNullsFirst()
    ensures NullsFirst([("A", None), ("B", Some(5))]) == [Ranked("A", 0), Ranked("B", 5)]
  {
    ExampleNameList();
    ExampleDescending();
  }

  lemma ExampleDescending()
    ensures var sales: seq<(string, Option<int>)> := [("A", None), ("B", Some(5))];
            Prefix(NullGroups(sales, ["A", "B"]) + Ranking.Smallest(ValueGroups(sales, ["A", "B"]), Descending, RankingSize),
                   RankingSize)
            == [Ranked("A", 0), Ranked("B", 5)]
  {
    ExampleGroups();
    Ranking.SmallestSingleton(Ranked("B", 5), Descending, RankingSize);
    assert Prefix([Ranked("A", 0)] + [Ranked("B", 5)], RankingSize) == [Ranked("A", 0)] + [Ranked("B", 5)];
  }

  /** Under ASC the NULL group of the example comes after the one with a total. */
  lemma ExampleNullsLast()
    ensures NullsLast([("A", None), ("B", Some(5))]) == [Ranked("B", 5), Ranked("A", 0)]
  {
    ExampleNameList();
    ExampleAscending();
  }

  lemma ExampleAscending()
    ensures var sales: seq<(string, Option<int>)> := [("A", None), ("B", Some(5))];
            Prefix(Ranking.Smallest(ValueGroups(sales, ["A", "B"]), Ascending, RankingSize) + NullGroups(sales, ["A", "B"]),
                   RankingSize)
            == [Ranked("B", 5), Ranked("A", 0)]
  {
    ExampleGroups();
    Ranking.SmallestSingleton(Ranked("B", 5), Ascending, RankingSize);
    assert Prefix([Ranked("B", 5)] + [Ranked("A", 0)], RankingSize) == [Ranked("B", 5)] + [Ranked("A", 0)];
  }

  /** As written, top_selling lists the NULL-sales product first, reporting 0 above 5. */
  lemma TopSellingNullFirst()
    ensures var r := TopSellingAsWritten(ExampleProducts(), ExampleRecords(), ExampleNow);
            r == [Ranked("A", 0), Ranked("B", 5)] && r[0].ventas < r[1].ventas
  {
    ExampleJoinedRows();
    ExampleNullsFirst();
  }

  /** As written, least_selling lists the NULL-sales product last, reporting 0 below 5. */
  lemma LeastSellingNullLast()
    ensures var r := LeastSellingAsWritten(ExampleProducts(), ExampleRecords(), ExampleNow);
            r == [Ranked("B", 5), Ranked("A", 0)] && r[0].ventas > r[1].ventas
  {
    ExampleJoinedRows();
    ExampleNullsLast();
  }
}

=== FILE: text.dfy ===
/**
 * The string operations the reports need: Python's `str.split(sep)` for a
 * one-character separator and `int()` on the pieces, with their inverses.
 */
module Text {

  import opened Wrappers

  /** `s.split(sep)`: the pieces between separators, empty ones included. */
  function Split(s: string, sep: char): (parts: seq<string>)
    ensures |parts| >= 1
    ensures forall i :: 0 <= i < |parts| ==> sep !in parts[i]
  {
    if s == [] then [[]]
    else
      var rest := Split(s[1..], sep);
      if s[0] == sep then [[]] + rest
      else [[s[0]] + rest[0]] + rest[1..]
  }

  /** `sep.join(parts)`. */
  function Join(parts: seq<string>, sep: char): string
    requires |parts| >= 1
  {
    if |parts| == 1 then parts[0] else parts[0] + [sep] + Join(parts[1..], sep)
  }

  /** Joining the pieces of a split gives back the string. */
  lemma {:induction false} JoinSplit(s: string, sep: char)
    ensures Join(Split(s, sep), sep) == s
  {
    if s != [] {
      JoinSplit(s[1..], sep);
      var rest := Split(s[1..], sep);
      if s[0] != sep && |rest| > 1 {
        assert rest == [rest[0]] + rest[1..];
      }
    }
  }

  /** A separator-free prefix glues onto the first piece. */
  lemma {:induction false} SplitPrefix(a: string, t: string, sep: char)
    requires sep !in a
    ensures Split(a + t, sep) == [a + Split(t, sep)[0]] + Split(t, sep)[1..]
  {
    if a != [] {
      SplitPrefix(a[1..], t, sep);
      assert (a + t)[1..] == a[1..] + t;
      assert [a[0]] + (a[1..] + Split(t, sep)[0]) == a + Split(t, sep)[0];
    } else {
      var parts := Split(t, sep);
      assert a + t == t && a + parts[0] == parts[0];
      assert parts == [parts[0]] + parts[1..];
    }
  }

  /** Splitting a join of separator-free pieces gives back the pieces. */
  lemma {:induction false} SplitJoin(parts: seq<string>, sep: char)
    requires |parts| >= 1
    requires forall i :: 0 <= i < |parts| ==> sep !in parts[i]
    ensures Split(Join(parts, sep), sep) == parts
  {
    if |parts| == 1 {
      SplitPrefix(parts[0], [], sep);
      assert parts[0] + [] == parts[0];
    } else {
      var j := Join(parts[1..], sep);
      SplitJoin(parts[1..], sep);
      assert parts[0] + [sep] + j == parts[0] + ([sep] + j);
      SplitPrefix(parts[0], [sep] + j, sep);
      assert ([sep] + j)[1..] == j;
      assert parts[0] + [] == parts[0];
      assert parts == [parts[0]] + parts[1..];
    }
  }

  predicate IsDigit(c: char)
  {
    '0' <= c <= '9'
  }

  predicate AllDigits(s: string)
  {
    forall i :: 0 <= i < |s| ==> IsDigit(s[i])
  }

  /** The value of a string of decimal digits. */
  function DigitsValue(s: string): (n: nat)
    requires AllDigits(s)
  {
    if s == [] then 0 else DigitsValue(s[..|s| - 1]) * 10 + (s[|s| - 1] - '0') as nat
  }

  /**
   * `int(s)` on the ASCII forms Python accepts: an optional `+` or `-` and at
   * least one digit; anything else raises `ValueError`, here `None`.
   */
  function ParseInt(s: string): (r: Option<int>)
    ensures var body := if 0 < |s| && (s[0] == '+' || s[0] == '-') then s[1..] else s;
            && (r.Some? <==> body != [] && AllDigits(body))
            && (r.Some? ==> r.value == if s[0] == '-' then -(DigitsValue(body) as int) else DigitsValue(body) as int)
  {
    if |s| > 0 && (s[0] == '+' || s[0] == '-') then
      var body := s[1..];
      if body != [] && AllDigits(body) then
        Some(if s[0] == '-' then -(DigitsValue(body) as int) else DigitsValue(body))
      else None
    else if s != [] && AllDigits(s) then Some(DigitsValue(s))
    else None
  }

  /** The decimal digits of `n`, as `str(n)` prints them. */
  function ShowNat(n: nat): (s: string)
    ensures 0 < |s| && AllDigits(s)
  {
    if n < 10 then [('0' as int + n) as char]
    else ShowNat(n / 10) + [('0' as int + n % 10) as char]
  }

  /** Reading back what `ShowNat` prints gives the number. */
  lemma {:induction false} ParseShowNat(n: nat)
    ensures DigitsValue(ShowNat(n)) == n
  {
    var s := ShowNat(n);
    if n >= 10 {
      ParseShowNat(n / 10);
      assert s[..|s| - 1] == ShowNat(n / 10);
    } else {
      assert s[..|s| - 1] == [];
    }
  }

  /** A leading zero does not change the value. */
  lemma {:induction false} LeadingZero(s: string)
    requires AllDigits(s)
    ensures AllDigits("0" + s) && DigitsValue("0" + s) == DigitsValue(s)
  {
    var z := "0" + s;
    if s != [] {
      LeadingZero(s[..|s| - 1]);
      assert z[..|z| - 1] == "0" + s[..|s| - 1];
    } else {
      assert z[..|z| - 1] == [];
    }
  }

  /** `int()` reads back what `ShowNat` prints, with or without one leading zero. */
  lemma ParseIntShowNat(n: nat)
    ensures ParseInt(ShowNat(n)) == Some(n)
    ensures ParseInt("0" + ShowNat(n)) == Some(n)
  {
    ParseShowNat(n);
    LeadingZero(ShowNat(n));
  }

  /** `int()` reads a sign in front of the digits. */
  lemma ParseIntSigned(n: nat)
    ensures ParseInt("+" + ShowNat(n)) == Some(n)
    ensures ParseInt("-" + ShowNat(n)) == Some(-(n as int))
  {
    ParseShowNat(n);
    assert ("+" + ShowNat(n))[1..] == ShowNat(n);
    assert ("-" + ShowNat(n))[1..] == ShowNat(n);
  }

  /** A sign alone, or a sign or digits followed by anything but digits, is not a number. */
  lemma ParseIntRejects(s: string, c: char)
    requires !IsDigit(c)
    ensures ParseInt([]) == None
    ensures ParseInt("-") == None && ParseInt("+") == None
    ensures AllDigits(s) ==> ParseInt(s + [c]) == None && ParseInt("-" + s + [c]) == None
  {
    assert (s + [c])[|s|] == c;
    assert ("-" + s + [c])[1..][|s|] == c;
  }
}

=== FILE: wrappers.dfy ===
/** Failure-carrying values used throughout the model. */
module Wrappers {

  datatype Option<+T> = None | Some(value: T)

  datatype Result<+R, +E> = Success(value: R) | Failure(error: E)
}
